=== FILE: README.md ===
# Rotating book circles: a Dafny model of the layout and interaction core

The widget shows one circle per book. The circles either orbit a fixed centre
together or drift as particles that bounce off the container's walls. Clicking
a circle expands it and pauses the motion. A second click on an expanded
circle arms a 300 ms timer. When the timer fires, the widget asks for the book
to be opened.

The repository has two versions of the same class, and both are modelled:

- **newer** (`src/js/circle-plugin.js`). It has a frame-rate cap, eased
  orbit positions, a debounce timer, double-click and outside-click
  dismissal, and `setMode`. Its modules are `PluginState`, `PluginLayout`,
  `PluginControl` and `Plugin`.
- **older** (`js/circle-plugin.js`). A click toggles a circle and sets the
  pause flag to "some circle is expanded". The orbit has no easing and the
  loop has no cap. Its module is `Legacy`.

Shared modules:

- `Wrappers`: `Option`, which stands for JavaScript's `undefined`.
- `Host`: what the page supplies.
  - `Trig` holds π as an abstract positive constant and cos/sin as arbitrary functions.
  - `Rect` is the bounding box from `getBoundingClientRect`.
  - `Point` is the measured `offsetLeft`/`offsetTop`.
  - `SeedDraw` holds the `Math.random()` draws for one circle. Its fields are unconstrained reals; `ValidMotionDraw` and `ValidDraw` say when they lie in [0, 1), and only the contracts that need that assume it.
- `Config`: the falsy-fallback defaults.
- `Books`: the book record and its status icon.
- `Items`: the circles and the in-order `forEach` writes.
- `Motion`: the arithmetic both versions share.
  - the wall bounce
  - the 10 % easing
  - the seeding formulas
  - the orbit angles
  - the content-rotation rule

The model is written as a functional state machine:

- Every operation is a pure function from a widget value to a widget value.
- The page's events form an `Event` datatype. `Step` applies one event and `Run` applies a sequence.
- Each version has an invariant, `Valid`, that `Step` preserves.
- In the newer version, the host's pending timers form a FIFO queue of circle indices. All timers share one delay, so they fire in the order they were set. `clearTimeout` removes a circle's entry from the queue.

## Model

| member | source | states |
|---|---|---|
| Config.Defaults | js/circle-plugin.js:9-15 | a missing or zero radius/speed becomes 150/0.01, a missing or empty mode becomes "circular", a missing speed range becomes [0.5, 2]; given values are kept |
| Config.MaxFps | src/js/circle-plugin.js:12 | a missing or zero frame cap becomes 60, so the frame interval 1000/maxFps is always defined |
| Books.StatusIcon | js/circle-plugin.js:50-52 | "read" gives ✅, "reading" gives 📖, and exactly every other status gives 📌 |
| Items.AnyExpanded | js/circle-plugin.js:70 | the page query for an expanded circle succeeds exactly when some circle is expanded |
| Items.Apply | src/js/circle-plugin.js:216-247 | writing each record's circle in order keeps the number of circles and leaves circles no record names untouched |
| Items.ApplyAligned | src/js/circle-plugin.js:216-247 | when record k names circle k, circle k ends up written from record k alone and the rest are untouched |
| Motion.Bounce | src/js/circle-plugin.js:219-238 | after moving, the coordinate is clamped into [0, limit] and the velocity is negated exactly when the wall was crossed, so its magnitude is kept; with no crossing it is a plain move |
| Motion.Ease | src/js/circle-plugin.js:162-163 | one easing tick leaves 0.9 of the gap to the target and lands between the shown point and the target |
| Motion.EaseGeometric | src/js/circle-plugin.js:162-163 | k ticks towards a fixed target leave 0.9^k of the first gap |
| Motion.PowDamping | src/js/circle-plugin.js:162-163 | the factor 0.9^k lies in (0, 1], so the eased gap never grows |
| Motion.StartCoord | src/js/circle-plugin.js:188-189 | a start coordinate from a draw in [0, 1) lies in [0, extent), or is 0 when the extent is 0 |
| Motion.SpeedMagnitude | src/js/circle-plugin.js:192-193 | a speed magnitude from a draw in [0, 1) lies in [min, max], strictly below max when min < max |
| Motion.SignedSpeed | src/js/circle-plugin.js:192-193 | with 0 ≤ min ≤ max the speed's absolute value lies in [min, max], and a sign draw below 0.5 makes it non-positive |
| Motion.StartAngle | src/js/circle-plugin.js:201 | a start facing angle lies in [0, 360) |
| Motion.RotationRate | src/js/circle-plugin.js:202 | a rotation rate lies in [-0.49, 0.21) |
| Motion.DegreesOfRadians | src/js/circle-plugin.js:246 | turning a facing angle into radians and back through π gives the same number of degrees |
| Motion.ContentRotation | src/js/circle-plugin.js:170-179 | an expanded circle gets 0°, an unpaused collapsed circle gets 180° minus its angle in degrees (`Degrees`, angle·180/π), and a paused collapsed circle keeps its previous rotation |
| Motion.AngleStep | src/js/circle-plugin.js:152 | the orbit step is positive and n steps make a full turn of 2π |
| Motion.OrbitAngles | src/js/circle-plugin.js:151-153 | circle 0 sits at the global phase, neighbours are exactly 2π/n apart, and one more step after the last circle closes the full turn |
| Motion.OrbitAngleIsProduct | src/js/circle-plugin.js:153 | circle i's orbit angle is exactly the source's `angleStep * i + parentAngle` |
| PluginState.SeedParticle | src/js/circle-plugin.js:187-203 | with draws in [0, 1) a new record starts inside the box, its speeds are within the configured range, its angle is in [0, 360) and its rate is in [-0.49, 0.21) |
| PluginState.InitRandomData | src/js/circle-plugin.js:181-208 | the records are replaced by exactly one fresh record per circle, record i seeded for circle i from that circle's draws, and each circle is moved to its record's start |
| PluginLayout.StepParticle | src/js/circle-plugin.js:216-244 | unpaused, the record ends inside the box and each velocity flips exactly when its axis crossed a wall; paused, position and velocity are unchanged; the facing angle always advances by the rate |
| PluginLayout.ShowParticle | src/js/circle-plugin.js:241-246 | a circle is placed at its record's position and, when collapsed and unpaused, rotated to 180° minus its facing angle |
| PluginLayout.RandomPass | src/js/circle-plugin.js:211-248 | every record is stepped and shown on its own circle; circles without a record and all other state stay unchanged |
| PluginLayout.Place | src/js/circle-plugin.js:155-167 | a circle moves to 0.9 of its previous gap to its orbit point (`OrbitX`/`OrbitY`: centre 200 plus radius times cos/sin) on both axes and gets the content-rotation rule for its orbit angle |
| PluginLayout.CircularPass | src/js/circle-plugin.js:146-168 | circle i of n is placed towards orbit angle i·(2π/n) plus the phase; with no circles nothing is placed |
| PluginLayout.Layout | src/js/circle-plugin.js:124-130 | in "circular" mode circle i is placed towards orbit angle i of n and the records are kept; in any other mode every record is stepped and shown on its own circle, and circles without a record are untouched |
| PluginLayout.PlaceConverges | src/js/circle-plugin.js:159-163 | while the orbit point stays fixed and offsets read back the last position, k passes leave 0.9^k of the first gap, horizontally and vertically |
| PluginControl.Cancel | src/js/circle-plugin.js:72 | cancelling drops exactly the circle's timer, cannot create a duplicate, and changes nothing when the circle has no timer |
| PluginControl.CancelSplits | src/js/circle-plugin.js:72 | cancelling acts on the earlier and the later part of the queue separately, so the remaining timers keep their firing order |
| PluginControl.CancelKeepsTimersOk | src/js/circle-plugin.js:94 | cancelling keeps every pending timer attached to an existing circle, with at most one per circle |
| PluginControl.Click | src/js/circle-plugin.js:70-90 | a click on a collapsed circle expands it, pauses the widget and leaves it without a timer; on an expanded circle it replaces that circle's timer with a new one at the back of the queue; the other circles' timers stay queued in their firing order (`Cancel` followed by the new timer, if any) |
| PluginControl.DoubleClick | src/js/circle-plugin.js:92-97 | a double-click cancels the circle's timer, keeping the other timers in their firing order, collapses the circle and unpauses the widget unconditionally |
| PluginControl.ClickOutside | src/js/circle-plugin.js:100-109 | with no reader modal open, every circle is collapsed and the widget unpaused; with the modal open nothing changes; timers are kept |
| PluginControl.FireTimer | src/js/circle-plugin.js:74-84 | the oldest timer fires and emits an open request with the book and its file name exactly when the file name is non-empty, without checking that the circle is still expanded |
| PluginControl.TapTwiceOpens | src/js/circle-plugin.js:70-90 | first click expands and pauses; second click plus the timer requests the book while it stays expanded |
| PluginControl.StaleTimerStillOpens | src/js/circle-plugin.js:74-109 | an outside click after arming the timer collapses the circle, and the timer still requests its book |
| PluginControl.DoubleClickIgnoresOthers | src/js/circle-plugin.js:92-97 | a double-click unpauses even while another circle stays expanded |
| Plugin.Animate | src/js/circle-plugin.js:251-269 | a frame closer than 1000/maxFps to the last one (`Throttled`) changes nothing; otherwise the frame time is recorded, the phase grows by speed exactly in circular mode when not paused, and the circles are placed towards the new orbit angles in circular mode with the records kept, or each record is stepped and shown on its circle in any other mode with the circles that have no record untouched |
| Plugin.PausedFrameFreezesMotion | src/js/circle-plugin.js:218-261 | while paused, a frame keeps the phase and every position and velocity, but the facing angles still turn |
| Plugin.Settle | src/js/circle-plugin.js:116-142 | re-seeding in random mode and then laying out once puts every circle where the layout of the re-seeded records says, measured from the circles before the re-seed, and yields a valid widget whenever the timers name existing circles and a paused widget has an expanded circle (`Steady`) |
| Plugin.Grow | src/js/circle-plugin.js:40-117 | adding a book appends one collapsed circle holding it; in random mode every record is replaced by a fresh one seeded for its circle from that circle's draws |
| Plugin.AddBook | src/js/circle-plugin.js:40-121 | adding a book appends one collapsed circle and keeps the earlier ones, the pause flag, the timers and the phase; in random mode every record is freshly seeded and then stepped once, in circular mode the records are kept, and in any other mode each old record is stepped once; then every circle is placed: in circular mode towards orbit angle i of n + 1, otherwise shown at its record, a circle with no record staying as it was |
| Plugin.SetMode | src/js/circle-plugin.js:132-143 | switching mode stores the mode; entering "random" replaces every record by a fresh one seeded for its circle and steps it once; "circular" keeps the records; any other mode steps the old records; then every circle is placed by the new mode: towards its orbit angle in "circular", otherwise shown at its record, a circle with no record staying as it was |
| Plugin.Empty | src/js/circle-plugin.js:17-21 | the freshly constructed widget satisfies the invariant |
| Plugin.AddBooks | src/js/circle-plugin.js:32-34 | adding the initial books extends the circles by one per book and keeps the invariant |
| Plugin.AddBooksAppends | src/js/circle-plugin.js:32-34 | the initial books appear in order, all collapsed |
| Plugin.Create | src/js/circle-plugin.js:2-37 | construction yields a valid, unpaused widget with one collapsed circle per book, no timers, an undefined frame time, and the phase advanced once in circular mode |
| Plugin.Step | src/js/circle-plugin.js:67-109 | every event keeps the invariant: paused only while some circle is expanded, at most one timer per circle, one record per circle in random mode; only accepted frames move the frame time; only timers emit open requests |
| Plugin.Run | src/js/circle-plugin.js:250-269 | any event sequence keeps the invariant, every open request carries the book's own non-empty file name, and the frames the cap lets through are at least 1000/maxFps apart, the first also from the last frame before the run |
| Plugin.StepSpaced | src/js/circle-plugin.js:252-257 | one event in front of a run whose frames are spaced keeps them spaced, because an accepted frame is at least 1000/maxFps after the last one and becomes the new last frame |
| Plugin.ThirtyFpsSkipsCloseFrame | src/js/circle-plugin.js:252-256 | at 30 fps, of frames at t, t+10 and t+40 only the middle one is skipped |
| Legacy.Click | js/circle-plugin.js:67-71 | a click toggles only that circle, and afterwards the widget is paused exactly when some circle is expanded |
| Legacy.SeedParticle | js/circle-plugin.js:78-94 | with draws in [0, 1) a new record starts inside the box with speeds in the configured range |
| Legacy.StepParticle | js/circle-plugin.js:154-175 | unpaused, the record ends inside the box and each velocity flips exactly when its axis crossed a wall; paused, it is unchanged |
| Legacy.RandomPass | js/circle-plugin.js:147-181 | every record is stepped and its circle moved to it; other circles and state stay unchanged |
| Legacy.Place | js/circle-plugin.js:120-143 | a circle goes straight to its orbit point (`OrbitX`/`OrbitY`); its rotation is 0° if expanded, else 180° minus the orbit angle in degrees, paused or not |
| Legacy.CircularPass | js/circle-plugin.js:115-144 | circle i of n is placed at orbit angle i·(2π/n) plus the phase, with no easing |
| Legacy.Layout | js/circle-plugin.js:106-112 | in "circular" mode circle i goes to orbit angle i of n and the records are kept; in any other mode every record is stepped and its circle moved to it, and circles without a record are untouched |
| Legacy.Animate | js/circle-plugin.js:184-195 | every call grows the phase by speed exactly in circular mode when not paused and places each circle at its new orbit angle; in any other mode each record is stepped and its circle moved to it, and circles without a record stay where they are; a paused call keeps every record |
| Legacy.Grow | js/circle-plugin.js:77-99 | in random mode adding a book appends exactly one record for the new circle, seeded inside the box, and keeps the existing records |
| Legacy.GrowKeepsExpanded | js/circle-plugin.js:45-74 | appending a collapsed circle does not change whether some circle is expanded |
| Legacy.AddBook | js/circle-plugin.js:39-103 | adding a book appends one collapsed circle, keeps the earlier ones, and keeps the invariant; in random mode each existing record is stepped once and one record seeded for the new circle is appended and stepped; then in circular mode circle i goes to orbit angle i of n + 1, and otherwise each circle moves to its record |
| Legacy.Empty | js/circle-plugin.js:17-20 | the freshly constructed widget satisfies the invariant |
| Legacy.AddBooks | js/circle-plugin.js:31-34 | adding the initial books extends the circles by one per book, keeps the earlier circles, the invariant and the pause flag |
| Legacy.AddBooksAppends | js/circle-plugin.js:31-34 | the initial books appear in order, all collapsed |
| Legacy.Create | js/circle-plugin.js:3-36 | construction yields a valid, unpaused widget whose circle k holds book k, collapsed, and the phase advanced once in circular mode |
| Legacy.Step | js/circle-plugin.js:67-71 | clicks, frames and new books keep the invariant |
| Legacy.RunKeepsPauseInvariant | js/circle-plugin.js:67-71 | after any sequence of events the widget is paused exactly when some circle is expanded |

## Behaviour worth knowing

The model keeps each of these as the newer code has it.

- **Double-click.** The `dblclick` handler sets the pause flag to false unconditionally (src/js/circle-plugin.js:96), even while another circle stays expanded (`PluginControl.DoubleClickIgnoresOthers`). So the newer version keeps only "paused ⇒ some circle expanded" (`PluginState.Valid`). The older version recomputes the flag from all circles and keeps both directions (`Legacy.RunKeepsPauseInvariant`).
- **Stale timers.** The timer callback checks only the file name, never whether the circle is still expanded (src/js/circle-plugin.js:74-84). The outside-click handler never calls `clearTimeout` (src/js/circle-plugin.js:100-109). So a timer armed before an outside click still requests its book (`PluginControl.StaleTimerStillOpens`).
- **Outside click.** One document listener is registered per circle. With no circles there is no listener, so `ClickOutside` does nothing then. The pause flag is false in that case anyway.
- **Modes other than the two named ones.** The layout tests for "circular" and the seeding tests for "random". Any other mode string therefore lays out as a random walk over records that are never re-seeded. The model keeps the mode as a string to show this.

## Left out

- DOM construction, CSS classes and `innerHTML` markup: "expanded" is a boolean per circle.
- The title letter label (`title[0].toUpperCase()`): it is presentation. `addBookCircle` throws before `appendChild` when the title is empty (src/js/circle-plugin.js:58) or when the status is empty or contains whitespace (such as "to read"), because `classList.add` refuses an empty token and one with whitespace in it (src/js/circle-plugin.js:48, js/circle-plugin.js:47). The model still appends the circle in all those cases.
- `requestAnimationFrame`: the loop is modelled as explicit frame events.
- `setTimeout`/`clearTimeout`: modelled as the timer queue and a timer-fire event.
- `CustomEvent` dispatch on `window`: modelled as the `Signal` value a transition returns.
- Math.cos, Math.sin and Math.PI: their values cannot be computed over the reals. π is any positive real, and cos/sin are arbitrary functions passed in.
- Floating point: all arithmetic is exact over `real`.
- NaN: only one NaN case is modelled. A frame time that is `undefined` (the constructor's `animate()` call) makes the cap comparison false. Other NaN sources are not modelled, such as NaN options or a speed range with fewer than two entries.
- Measured DOM values: the container box and each circle's `offsetLeft`/`offsetTop` are parameters. Their integer rounding and CSS offsets are not modelled.
- `Math.random()`: its draws are parameters, one `SeedDraw` per circle.
- Repeated box reads: one callback can read `getBoundingClientRect()` more than once. In the newer version `addBook` and `setMode` read it in `initRandomData` (src/js/circle-plugin.js:184) and again in `updateRandomPosition` (src/js/circle-plugin.js:213). In the older version `addBookCircle` reads it at js/circle-plugin.js:78 and again in `updateRandomPosition` (js/circle-plugin.js:149). The model assumes all reads in one callback return the same box and passes that box once.
- Browser event order: a double-click is also preceded by two click events. Each is a separate event here.
- The unused `this.books` array: the book is stored in its circle instead.
- The initial inline style of a new circle: it is absent in the page and modelled as left = top = rotation = 0.
- Motion.SignedSpeed: states the speed bounds only for 0 ≤ min ≤ max. With a negative minimum the magnitude can fall outside [min, max].
- Motion.Bounce: states the clamping bounds only for a non-negative extent. A measured box is never negative.

=== FILE: books.dfy ===
/** The items shown by the widget. */
module Books {

  /**
   * A book. `fileName` is the empty string when the book has none, which is
   * the only falsy value a string can take.
   */
  datatype Book = Book(title: string, author: string, genre: string, status: string, fileName: string)

  const ReadIcon: string := "\U{2705}"
  const ReadingIcon: string := "\U{1F4D6}"
  const PinIcon: string := "\U{1F4CC}"

  /** The icon shown on a circle for its book's reading status. */
  function StatusIcon(status: string): (icon: string)
    ensures icon == ReadIcon <==> status == "read"
    ensures icon == ReadingIcon <==> status == "reading"
    ensures icon == PinIcon <==> status != "read" && status != "reading"
  {
    if status == "read" then ReadIcon
    else if status == "reading" then ReadingIcon
    else PinIcon
  }

}

=== FILE: config.dfy ===
/**
 * The widget's configuration and its defaults. Every option falls back with
 * JavaScript's `||`, so a falsy value (missing, or the number 0, or the empty
 * string) is replaced by the default.
 */
module Config {

  import opened Wrappers

  /** A real that is never zero; a `x || d` fallback with d != 0 yields one. */
  type NonZero = r: real | r != 0.0 witness 1.0

  /** The [minSpeed, maxSpeed] pair used to draw random-mode speeds. */
  datatype SpeedRange = SpeedRange(min: real, max: real)

  /** The constructor's `options` object; `None` is an absent field. */
  datatype Options = Options(
    radius: Option<real>,
    speed: Option<real>,
    mode: Option<string>,
    maxFps: Option<real>,
    randomSpeedRange: Option<SpeedRange>)

  /** The resolved `config` object shared by both versions. */
  datatype Config = Config(radius: NonZero, speed: NonZero, mode: string, randomSpeedRange: SpeedRange)

  const CircularMode: string := "circular"
  const RandomMode: string := "random"
  const DefaultRadius: NonZero := 150.0
  const DefaultSpeed: NonZero := 0.01
  const DefaultMaxFps: NonZero := 60.0
  const DefaultSpeedRange: SpeedRange := SpeedRange(0.5, 2.0)

  /** JavaScript truthiness of an optional number. */
  predicate Truthy(o: Option<real>) {
    o.Some? && o.value != 0.0
  }

  /** `o || fallback` on an optional number. */
  function OrElse(o: Option<real>, fallback: NonZero): (r: NonZero)
    ensures Truthy(o) ==> r == o.value
    ensures !Truthy(o) ==> r == fallback
  {
    if Truthy(o) then o.value else fallback
  }

  /** The configuration both versions build from their options. */
  function Defaults(o: Options): (c: Config)
    ensures Truthy(o.radius) ==> c.radius == o.radius.value
    ensures !Truthy(o.radius) ==> c.radius == 150.0
    ensures Truthy(o.speed) ==> c.speed == o.speed.value
    ensures !Truthy(o.speed) ==> c.speed == 0.01
    ensures c.mode != ""
    ensures o.mode.Some? && o.mode.value != "" ==> c.mode == o.mode.value
    ensures o.mode.None? || o.mode.value == "" ==> c.mode == "circular"
    ensures o.randomSpeedRange.Some? ==> c.randomSpeedRange == o.randomSpeedRange.value
    ensures o.randomSpeedRange.None? ==> c.randomSpeedRange == SpeedRange(0.5, 2.0)
  {
    Config(
      OrElse(o.radius, DefaultRadius),
      OrElse(o.speed, DefaultSpeed),
      if o.mode.Some? && o.mode.value != "" then o.mode.value else CircularMode,
      if o.randomSpeedRange.Some? then o.randomSpeedRange.value else DefaultSpeedRange)
  }

  /** The frame-rate cap of the newer version. */
  function MaxFps(o: Options): (f: NonZero)
    ensures Truthy(o.maxFps) ==> f == o.maxFps.value
    ensures !Truthy(o.maxFps) ==> f == 60.0
  {
    OrElse(o.maxFps, DefaultMaxFps)
  }

}

=== FILE: host.dfy ===
/**
 * What the widget reads from its host page and cannot compute itself:
 * trigonometry, measured DOM geometry and Math.random() draws. Each is a
 * parameter of the operations that read it.
 */
module Host {

  /** A strictly positive real. */
  type Positive = r: real | r > 0.0 witness 1.0

  /**
   * Math.PI, Math.cos and Math.sin. Their values cannot be computed over the
   * reals here, so π is any positive constant and cos/sin are arbitrary.
   */
  datatype Trig = Trig(pi: Positive, cos: real -> real, sin: real -> real)

  /** The container's bounding box, as getBoundingClientRect() reports it. */
  datatype Rect = Rect(width: real, height: real)

  /** A circle's measured offsetLeft/offsetTop. */
  datatype Point = Point(left: real, top: real)

  /**
   * The Math.random() draws one circle consumes when it is seeded for the
   * random mode, in JavaScript evaluation order: start x, start y, speed
   * magnitude and sign on x, speed magnitude and sign on y, facing angle and
   * rotation rate. The older version consumes only the first six.
   */
  datatype SeedDraw = SeedDraw(
    x: real, y: real,
    speedX: real, signX: real,
    speedY: real, signY: real,
    angle: real, rate: real)

  /** Math.random() returns a value in [0, 1). */
  predicate InUnit(r: real) {
    0.0 <= r < 1.0
  }

  /** The six draws that position and launch a circle lie in [0, 1). */
  predicate ValidMotionDraw(d: SeedDraw) {
    InUnit(d.x) && InUnit(d.y) && InUnit(d.speedX) && InUnit(d.signX)
    && InUnit(d.speedY) && InUnit(d.signY)
  }

  /** All eight draws lie in [0, 1). */
  predicate ValidDraw(d: SeedDraw) {
    ValidMotionDraw(d) && InUnit(d.angle) && InUnit(d.rate)
  }

  /**
   * Everything one callback may read from the page: the container's box,
   * the measured offset of circle i, and the draws for seeding circle i.
   */
  datatype Host = Host(rect: Rect, offset: nat -> Point, draws: nat -> SeedDraw)

}

=== FILE: items.dfy ===
/** The circles on the page, one per book, in insertion order. */
module Items {

  import opened Books

  /**
   * One circle: its book, whether it carries the `expanded` class, and the
   * style it was last given (left/top in pixels, content rotation in
   * degrees). A fresh circle has no inline style, modelled as zeros.
   */
  datatype Circle = Circle(book: Book, expanded: bool, left: real, top: real, rotation: real)

  function NewCircle(book: Book): Circle {
    Circle(book, false, 0.0, 0.0, 0.0)
  }

  /** Some circle carries the `expanded` class. */
  predicate SomeExpanded(cs: seq<Circle>) {
    exists j :: 0 <= j < |cs| && cs[j].expanded
  }

  /** `querySelector(".book-circle.expanded")` found an element. */
  function AnyExpanded(cs: seq<Circle>): (b: bool)
    ensures b <==> SomeExpanded(cs)
  {
    if cs == [] then false
    else
      assert forall j :: 0 < j < |cs| ==> cs[j] == cs[1..][j - 1];
      cs[0].expanded || AnyExpanded(cs[1..])
  }

  /** Two circle lists hold the same books with the same expanded flags. */
  predicate SameItems(a: seq<Circle>, b: seq<Circle>) {
    |a| == |b| && forall i :: 0 <= i < |a| ==> a[i].book == b[i].book && a[i].expanded == b[i].expanded
  }

  /** `b` starts with the circles of `a`: same books, same expanded flags. */
  predicate Extends(b: seq<Circle>, a: seq<Circle>) {
    |a| <= |b| && forall i :: 0 <= i < |a| ==> b[i].book == a[i].book && b[i].expanded == a[i].expanded
  }

  lemma ExtendsTransitive(c: seq<Circle>, b: seq<Circle>, a: seq<Circle>)
    requires Extends(c, b) && Extends(b, a)
    ensures Extends(c, a)
  {
  }

  lemma ExtendsExpanded(b: seq<Circle>, a: seq<Circle>)
    requires Extends(b, a)
    ensures SomeExpanded(a) ==> SomeExpanded(b)
  {
    if SomeExpanded(a) {
      var j :| 0 <= j < |a| && a[j].expanded;
      assert b[j].expanded;
    }
  }

  /** Circles `start`, `start + 1`, ... hold `books` in order, collapsed. */
  predicate Appended(cs: seq<Circle>, start: nat, books: seq<Book>) {
    |cs| == start + |books|
    && forall k :: 0 <= k < |books| ==> cs[start + k].book == books[k] && !cs[start + k].expanded
  }

  lemma AppendedCons(cs: seq<Circle>, start: nat, books: seq<Book>)
    requires books != [] && start < |cs|
    requires cs[start].book == books[0] && !cs[start].expanded
    requires Appended(cs, start + 1, books[1..])
    ensures Appended(cs, start, books)
  {
    forall k | 1 <= k < |books|
      ensures cs[start + k].book == books[k] && !cs[start + k].expanded
    {
      assert books[k] == books[1..][k - 1];
      assert start + k == (start + 1) + (k - 1);
    }
  }

  lemma SameItemsExpanded(a: seq<Circle>, b: seq<Circle>)
    requires SameItems(a, b)
    ensures SomeExpanded(a) <==> SomeExpanded(b)
  {
    if SomeExpanded(a) {
      var j :| 0 <= j < |a| && a[j].expanded;
      assert b[j].expanded;
    }
    if SomeExpanded(b) {
      var j :| 0 <= j < |b| && b[j].expanded;
      assert a[j].expanded;
    }
  }

  /**
   * The effect of a `forEach` over per-circle records that each write the
   * circle they reference: record k rewrites circle `element(ps[k])` with
   * `show`, in order.
   */
  function Apply<P>(cs: seq<Circle>, ps: seq<P>, element: P -> nat, show: (Circle, P) -> Circle): (r: seq<Circle>)
    requires forall k :: 0 <= k < |ps| ==> element(ps[k]) < |cs|
    ensures |r| == |cs|
    ensures forall j :: 0 <= j < |cs| && (forall k :: 0 <= k < |ps| ==> element(ps[k]) != j) ==> r[j] == cs[j]
    decreases |ps|
  {
    if ps == [] then cs
    else
      var before := Apply(cs, ps[..|ps| - 1], element, show);
      var p := ps[|ps| - 1];
      before[element(p) := show(before[element(p)], p)]
  }

  /**
   * When record k references circle k, circle k ends up written from record
   * k alone and the circles without a record are untouched.
   */
  lemma {:induction false} ApplyAligned<P>(cs: seq<Circle>, ps: seq<P>, element: P -> nat, show: (Circle, P) -> Circle)
    requires |ps| <= |cs|
    requires forall k :: 0 <= k < |ps| ==> element(ps[k]) == k
    ensures forall j :: 0 <= j < |ps| ==> Apply(cs, ps, element, show)[j] == show(cs[j], ps[j])
    ensures forall j :: |ps| <= j < |cs| ==> Apply(cs, ps, element, show)[j] == cs[j]
    decreases |ps|
  {
    if ps != [] {
      var init := ps[..|ps| - 1];
      ApplyAligned(cs, init, element, show);
      assert forall k :: 0 <= k < |init| ==> init[k] == ps[k];
    }
  }

}

=== FILE: legacy.dfy ===
/**
 * The older widget (js/circle-plugin.js): a click toggles a circle and
 * recomputes the pause flag from all circles, the orbit is placed without
 * easing, the animation loop has no frame-rate cap, and a book added in
 * random mode gets one fresh record of its own.
 */
module Legacy {

  import opened Host
  import opened Config
  import opened Books
  import opened Items
  import opened Motion

  /** One random-mode record: the circle it moves, its position and velocity. */
  datatype Particle = Particle(element: nat, x: real, y: real, vx: real, vy: real)

  datatype Widget = Widget(config: Config, circles: seq<Circle>, particles: seq<Particle>, parentAngle: real, paused: bool)

  /**
   * Record i moves circle i, and no record lacks a circle. The same
   * condition as `PluginState.Aligned`, stated again because the older
   * record type has no facing angle or rate.
   */
  predicate Aligned(ps: seq<Particle>, n: nat) {
    |ps| <= n && forall i :: 0 <= i < |ps| ==> ps[i].element == i
  }

  /**
   * The invariant of every reachable state: paused exactly when some circle
   * is expanded; records exist, one per circle, only in random mode (the
   * mode never changes in this version).
   */
  predicate Valid(w: Widget) {
    && (w.paused <==> SomeExpanded(w.circles))
    && Aligned(w.particles, |w.circles|)
    && (w.config.mode == RandomMode ==> |w.particles| == |w.circles|)
    && (w.config.mode != RandomMode ==> w.particles == [])
  }

  /** A click toggles circle i and sets the pause flag from the page. */
  function Click(w: Widget, i: nat): (r: Widget)
    requires i < |w.circles|
    ensures r == w.(circles := r.circles, paused := r.paused)
    ensures r.circles == w.circles[i := w.circles[i].(expanded := !w.circles[i].expanded)]
    ensures r.paused <==> SomeExpanded(r.circles)
    ensures Valid(w) ==> Valid(r)
  {
    var cs := w.circles[i := w.circles[i].(expanded := !w.circles[i].expanded)];
    w.(circles := cs, paused := AnyExpanded(cs))
  }

  /** The record `addBookCircle` builds for a new circle from six draws. */
  function SeedParticle(element: nat, rect: Rect, range: SpeedRange, d: SeedDraw): (p: Particle)
    ensures p.element == element
    ensures ValidMotionDraw(d) ==> Launched(p.x, p.y, p.vx, p.vy, rect, range)
  {
    Particle(element,
      StartCoord(d.x, rect.width),
      StartCoord(d.y, rect.height),
      SignedSpeed(range, d.speedX, d.signX),
      SignedSpeed(range, d.speedY, d.signY))
  }

  /** One record's share of `updateRandomPosition`: unless paused, move and bounce. */
  function StepParticle(p: Particle, paused: bool, rect: Rect): (r: Particle)
    ensures r.element == p.element
    ensures paused ==> r == p
    ensures Abs(r.vx) == Abs(p.vx) && Abs(r.vy) == Abs(p.vy)
    ensures !paused && rect.width >= 0.0 ==>
              0.0 <= r.x <= rect.width && r.x == Clamp(p.x + p.vx, 0.0, rect.width)
              && r.vx == (if Crossed(p.x + p.vx, rect.width) then -p.vx else p.vx)
    ensures !paused && rect.height >= 0.0 ==>
              0.0 <= r.y <= rect.height && r.y == Clamp(p.y + p.vy, 0.0, rect.height)
              && r.vy == (if Crossed(p.y + p.vy, rect.height) then -p.vy else p.vy)
  {
    if paused then p
    else
      var ax := Bounce(Axis(p.x, p.vx), rect.width);
      var ay := Bounce(Axis(p.y, p.vy), rect.height);
      Particle(p.element, ax.pos, ay.pos, ax.vel, ay.vel)
  }

  /** `updateRandomPosition`: step every record and move its circle there. */
  function RandomPass(w: Widget, rect: Rect): (r: Widget)
    requires Aligned(w.particles, |w.circles|)
    ensures r == w.(particles := r.particles, circles := r.circles)
    ensures |r.particles| == |w.particles| && Aligned(r.particles, |r.circles|)
    ensures forall i :: 0 <= i < |w.particles| ==> r.particles[i] == StepParticle(w.particles[i], w.paused, rect)
    ensures SameItems(r.circles, w.circles)
    ensures forall i :: 0 <= i < |w.particles| ==>
              r.circles[i] == w.circles[i].(left := r.particles[i].x, top := r.particles[i].y)
    ensures forall i :: |w.particles| <= i < |w.circles| ==> r.circles[i] == w.circles[i]
  {
    var ps := seq(|w.particles|, i requires 0 <= i < |w.particles| => StepParticle(w.particles[i], w.paused, rect));
    var element := (p: Particle) => p.element;
    var show := (c: Circle, p: Particle) => c.(left := p.x, top := p.y);
    ApplyAligned(w.circles, ps, element, show);
    w.(particles := ps, circles := Apply(w.circles, ps, element, show))
  }

  /**
   * One circle's share of `updateCircularPosition`: put it on its orbit
   * point and rotate its content, paused or not.
   */
  function Place(c: Circle, angle: real, radius: real, trig: Trig): (r: Circle)
    ensures r.book == c.book && r.expanded == c.expanded
    ensures r.left == OrbitX(trig, radius, angle) && r.top == OrbitY(trig, radius, angle)
    ensures c.expanded ==> r.rotation == 0.0
    ensures !c.expanded ==> r.rotation == 180.0 - Degrees(angle, trig)
  {
    c.(left := OrbitX(trig, radius, angle),
       top := OrbitY(trig, radius, angle),
       rotation := if c.expanded then 0.0 else -Degrees(angle, trig) + 180.0)
  }

  /** `updateCircularPosition`: circle i of n goes to orbit angle i·(2π/n) + phase. */
  function CircularPass(cs: seq<Circle>, radius: real, phase: real, trig: Trig): (r: seq<Circle>)
    ensures SameItems(r, cs)
    ensures forall i :: 0 <= i < |r| ==> r[i] == Place(cs[i], OrbitAngles(trig, |cs|, phase)[i], radius, trig)
  {
    var angles := OrbitAngles(trig, |cs|, phase);
    var r := seq(|cs|, i requires 0 <= i < |cs| => Place(cs[i], angles[i], radius, trig));
    assert forall i :: 0 <= i < |cs| ==> r[i] == Place(cs[i], angles[i], radius, trig);
    r
  }

  /** `updatePositions`: the orbit in "circular" mode, the random walk in any other. */
  function Layout(w: Widget, trig: Trig, rect: Rect): (r: Widget)
    requires Aligned(w.particles, |w.circles|)
    ensures r == w.(particles := r.particles, circles := r.circles)
    ensures |r.particles| == |w.particles| && Aligned(r.particles, |r.circles|)
    ensures SameItems(r.circles, w.circles)
    ensures w.config.mode == CircularMode ==> r.particles == w.particles
    ensures w.config.mode == CircularMode ==>
              forall i :: 0 <= i < |w.circles| ==>
                r.circles[i] == Place(w.circles[i], OrbitAngles(trig, |w.circles|, w.parentAngle)[i], w.config.radius, trig)
    ensures w.config.mode != CircularMode ==>
              forall i :: 0 <= i < |w.particles| ==> r.particles[i] == StepParticle(w.particles[i], w.paused, rect)
    ensures w.config.mode != CircularMode ==>
              forall i :: 0 <= i < |w.particles| ==> r.circles[i] == w.circles[i].(left := r.particles[i].x, top := r.particles[i].y)
    ensures w.config.mode != CircularMode ==> forall i :: |w.particles| <= i < |w.circles| ==> r.circles[i] == w.circles[i]
  {
    if w.config.mode == CircularMode then
      w.(circles := CircularPass(w.circles, w.config.radius, w.parentAngle, trig))
    else
      RandomPass(w, rect)
  }

  /** `animate()`: no frame-rate cap; advance the orbit unless paused, then lay out. */
  function Animate(w: Widget, trig: Trig, rect: Rect): (r: Widget)
    requires Aligned(w.particles, |w.circles|)
    ensures r.parentAngle != w.parentAngle <==> w.config.mode == CircularMode && !w.paused
    ensures r.parentAngle == w.parentAngle || r.parentAngle == w.parentAngle + w.config.speed
    ensures r.config == w.config && r.paused == w.paused
    ensures SameItems(r.circles, w.circles) && |r.particles| == |w.particles| && Aligned(r.particles, |r.circles|)
    ensures w.paused ==> r.particles == w.particles
    ensures w.config.mode == CircularMode ==>
              forall i :: 0 <= i < |w.circles| ==>
                r.circles[i] == Place(w.circles[i], OrbitAngles(trig, |w.circles|, r.parentAngle)[i], w.config.radius, trig)
    ensures w.config.mode != CircularMode ==>
              forall i :: 0 <= i < |w.particles| ==>
                r.particles[i] == StepParticle(w.particles[i], w.paused, rect)
                && r.circles[i] == w.circles[i].(left := r.particles[i].x, top := r.particles[i].y)
    ensures w.config.mode != CircularMode ==> forall i :: |w.particles| <= i < |w.circles| ==> r.circles[i] == w.circles[i]
    ensures Valid(w) ==> Valid(r)
  {
    var phase := if w.config.mode == CircularMode && !w.paused then w.parentAngle + w.config.speed else w.parentAngle;
    var r := Layout(w.(parentAngle := phase), trig, rect);
    SameItemsExpanded(r.circles, w.circles);
    assert w.paused ==> forall i :: 0 <= i < |w.particles| ==> r.particles[i] == w.particles[i];
    r
  }

  /**
   * `addBookCircle` before its layout: append a collapsed circle and, in
   * random mode, push one record for it; the existing records stay as they
   * are.
   */
  function Grow(w: Widget, book: Book, rect: Rect, draw: SeedDraw): (g: Widget)
    requires Aligned(w.particles, |w.circles|)
    requires w.config.mode == RandomMode ==> |w.particles| == |w.circles|
    ensures g == w.(circles := g.circles, particles := g.particles)
    ensures |g.circles| == |w.circles| + 1 && Extends(g.circles, w.circles)
    ensures g.circles[|w.circles|].book == book && !g.circles[|w.circles|].expanded
    ensures w.config.mode != RandomMode ==> g.particles == w.particles
    ensures w.config.mode == RandomMode ==>
              && |g.particles| == |w.particles| + 1
              && g.particles[..|w.particles|] == w.particles
              && g.particles[|w.particles|].element == |w.circles|
              && (ValidMotionDraw(draw) ==>
                    var p := g.particles[|w.particles|];
                    Launched(p.x, p.y, p.vx, p.vy, rect, w.config.randomSpeedRange))
    ensures Aligned(g.particles, |g.circles|)
  {
    var grown := w.(circles := w.circles + [NewCircle(book)]);
    if w.config.mode == RandomMode then
      grown.(particles := w.particles + [SeedParticle(|w.circles|, rect, w.config.randomSpeedRange, draw)])
    else
      grown
  }

  /** Appending a collapsed circle neither creates nor hides an expanded one. */
  lemma GrowKeepsExpanded(g: seq<Circle>, w: seq<Circle>)
    requires |g| == |w| + 1 && Extends(g, w) && !g[|w|].expanded
    ensures SomeExpanded(g) <==> SomeExpanded(w)
  {
    ExtendsExpanded(g, w);
    if SomeExpanded(g) {
      var j :| 0 <= j < |g| && g[j].expanded;
      assert j < |w| && w[j].expanded;
    }
  }

  /** `addBook`: grow, then lay out once. */
  function AddBook(w: Widget, trig: Trig, book: Book, rect: Rect, draw: SeedDraw): (r: Widget)
    requires Valid(w)
    ensures Valid(r)
    ensures |r.circles| == |w.circles| + 1 && Extends(r.circles, w.circles)
    ensures r.circles[|w.circles|].book == book && !r.circles[|w.circles|].expanded
    ensures r.config == w.config && r.paused == w.paused && r.parentAngle == w.parentAngle
    ensures w.config.mode == RandomMode ==>
              && |r.particles| == |w.particles| + 1
              && (forall i :: 0 <= i < |w.particles| ==> r.particles[i] == StepParticle(w.particles[i], w.paused, rect))
              && r.particles[|w.particles|] == StepParticle(SeedParticle(|w.circles|, rect, w.config.randomSpeedRange, draw), w.paused, rect)
    ensures w.config.mode == CircularMode ==> forall i :: 0 <= i < |r.circles| ==>
              r.circles[i] == Place((w.circles + [NewCircle(book)])[i], OrbitAngles(trig, |w.circles| + 1, w.parentAngle)[i], w.config.radius, trig)
    ensures w.config.mode != CircularMode ==> forall i :: 0 <= i < |r.particles| ==>
              r.circles[i] == (w.circles + [NewCircle(book)])[i].(left := r.particles[i].x, top := r.particles[i].y)
    ensures w.config.mode != CircularMode ==> forall i :: |r.particles| <= i < |r.circles| ==>
              r.circles[i] == (w.circles + [NewCircle(book)])[i]
  {
    var g := Grow(w, book, rect, draw);
    GrowKeepsExpanded(g.circles, w.circles);
    var r := Layout(g, trig, rect);
    SameItemsExpanded(r.circles, g.circles);
    assert Extends(r.circles, w.circles);
    r
  }

  /** The widget as the constructor leaves it before `init`. */
  function Empty(o: Options): (w: Widget)
    ensures Valid(w) && w.circles == []
  {
    Widget(Defaults(o), [], [], 0.0, false)
  }

  /** `init`'s loop: book k is added with the box and draws of `inputs[k]`. */
  function AddBooks(w: Widget, trig: Trig, books: seq<Book>, inputs: seq<(Rect, SeedDraw)>): (r: Widget)
    requires Valid(w) && |inputs| == |books|
    ensures Valid(r)
    ensures |r.circles| == |w.circles| + |books| && Extends(r.circles, w.circles)
    ensures r.config == w.config && r.parentAngle == w.parentAngle && r.paused == w.paused
    decreases |books|
  {
    if books == [] then w
    else
      var next := AddBook(w, trig, books[0], inputs[0].0, inputs[0].1);
      var r := AddBooks(next, trig, books[1..], inputs[1..]);
      ExtendsTransitive(r.circles, next.circles, w.circles);
      r
  }

  /** The circles `init` appends hold the initial books, in order, collapsed. */
  lemma {:induction false} AddBooksAppends(w: Widget, trig: Trig, books: seq<Book>, inputs: seq<(Rect, SeedDraw)>)
    requires Valid(w) && |inputs| == |books|
    ensures Appended(AddBooks(w, trig, books, inputs).circles, |w.circles|, books)
    decreases |books|
  {
    if books != [] {
      var next := AddBook(w, trig, books[0], inputs[0].0, inputs[0].1);
      var r := AddBooks(next, trig, books[1..], inputs[1..]);
      assert AddBooks(w, trig, books, inputs) == r;
      AddBooksAppends(next, trig, books[1..], inputs[1..]);
      assert r.circles[|w.circles|].book == next.circles[|w.circles|].book;
      assert r.circles[|w.circles|].expanded == next.circles[|w.circles|].expanded;
      AppendedCons(r.circles, |w.circles|, books);
    }
  }

  /**
   * The constructor: resolve the options, add the initial books, then run
   * one uncapped `animate()`.
   */
  function Create(o: Options, trig: Trig, books: seq<Book>, inputs: seq<(Rect, SeedDraw)>, rect: Rect): (r: Widget)
    requires |inputs| == |books|
    ensures Valid(r) && |r.circles| == |books| && r.config == Defaults(o)
    ensures forall k :: 0 <= k < |books| ==> r.circles[k].book == books[k] && !r.circles[k].expanded
    ensures !r.paused
    ensures r.parentAngle == if Defaults(o).mode == CircularMode then Defaults(o).speed as real else 0.0
  {
    var built := AddBooks(Empty(o), trig, books, inputs);
    AddBooksAppends(Empty(o), trig, books, inputs);
    var r := Animate(built, trig, rect);
    assert forall k :: 0 <= k < |books| ==> built.circles[0 + k] == built.circles[k];
    assert SameItems(r.circles, built.circles);
    r
  }

  /** Everything that can happen to the older widget. */
  datatype Event =
    | CircleClicked(i: nat)
    | FrameRequested(rect: Rect)
    | BookAdded(book: Book, rect: Rect, draw: SeedDraw)

  /** One event. Clicks always name an existing circle; others are ignored. */
  function Step(w: Widget, trig: Trig, e: Event): (r: Widget)
    requires Valid(w)
    ensures Valid(r)
  {
    match e
    case CircleClicked(i) => if i < |w.circles| then Click(w, i) else w
    case FrameRequested(rect) => Animate(w, trig, rect)
    case BookAdded(book, rect, draw) => AddBook(w, trig, book, rect, draw)
  }

  function Run(w: Widget, trig: Trig, es: seq<Event>): Widget
    requires Valid(w)
    decreases |es|
  {
    if es == [] then w else Run(Step(w, trig, es[0]), trig, es[1..])
  }

  /**
   * However clicks, frames and new books interleave, the widget is paused
   * exactly when some circle is expanded.
   */
  lemma {:induction false} RunKeepsPauseInvariant(w: Widget, trig: Trig, es: seq<Event>)
    requires Valid(w)
    ensures var r := Run(w, trig, es);
            r.paused <==> SomeExpanded(r.circles)
    decreases |es|
  {
    if es != [] {
      RunKeepsPauseInvariant(Step(w, trig, es[0]), trig, es[1..]);
    }
  }

}

=== FILE: motion.dfy ===
/**
 * The arithmetic shared by both versions of the widget: the wall bounce of
 * the random walk, the easing of the circular layout, the seeding formulas
 * and the content-rotation rule.
 */
module Motion {

  import opened Host
  import opened Config

  function Abs(x: real): real {
    if x < 0.0 then -x else x
  }

  /** Reference definition: v limited to the closed interval [lo, hi]. */
  function Clamp(v: real, lo: real, hi: real): real {
    if v < lo then lo else if v > hi then hi else v
  }

  /** A coordinate lies beyond one of the walls at 0 and at `limit`. */
  predicate Crossed(p: real, limit: real) {
    p < 0.0 || p > limit
  }

  /** Position and velocity along one axis. */
  datatype Axis = Axis(pos: real, vel: real)

  /**
   * One axis of a random-walk step: move by the velocity, then test the low
   * wall and the high wall in turn, each clamping the position and negating
   * the velocity.
   */
  function Bounce(a: Axis, limit: real): (r: Axis)
    ensures Abs(r.vel) == Abs(a.vel)
    ensures !Crossed(a.pos + a.vel, limit) ==> r == Axis(a.pos + a.vel, a.vel)
    ensures limit >= 0.0 ==> 0.0 <= r.pos <= limit && r.pos == Clamp(a.pos + a.vel, 0.0, limit)
    ensures limit >= 0.0 && Crossed(a.pos + a.vel, limit) ==> r.vel == -a.vel
  {
    var moved := a.pos + a.vel;
    var low := if moved < 0.0 then Axis(0.0, -a.vel) else Axis(moved, a.vel);
    if low.pos > limit then Axis(limit, -low.vel) else low
  }

  /** The share of the remaining distance the circular layout covers per tick. */
  const Damping: real := 0.1

  /** One easing tick: move 10% of the way from the shown coordinate to the target. */
  function Ease(shown: real, target: real): (r: real)
    ensures target - r == 0.9 * (target - shown)
    ensures shown <= target ==> shown <= r <= target
    ensures target <= shown ==> target <= r <= shown
  {
    shown + (target - shown) * Damping
  }

  function Pow(b: real, k: nat): real {
    if k == 0 then 1.0 else b * Pow(b, k - 1)
  }

  /** k easing ticks towards a fixed target, each starting where the last ended. */
  function EaseTimes(shown: real, target: real, k: nat): real {
    if k == 0 then shown else Ease(EaseTimes(shown, target, k - 1), target)
  }

  /** After k ticks towards a fixed target the gap is 0.9^k of the first gap. */
  lemma {:induction false} EaseGeometric(shown: real, target: real, k: nat)
    ensures target - EaseTimes(shown, target, k) == Pow(0.9, k) * (target - shown)
  {
    if k > 0 {
      EaseGeometric(shown, target, k - 1);
      var gap := target - EaseTimes(shown, target, k - 1);
      var p := Pow(0.9, k - 1);
      assert target - EaseTimes(shown, target, k) == 0.9 * gap;
      assert 0.9 * (p * (target - shown)) == (0.9 * p) * (target - shown);
    }
  }

  /** The factor 0.9^k lies in (0, 1], so easing never overshoots or diverges. */
  lemma {:induction false} PowDamping(k: nat)
    ensures 0.0 < Pow(0.9, k) <= 1.0
  {
    if k > 0 {
      PowDamping(k - 1);
    }
  }

  /** Scaling a non-negative extent by a draw in [0, 1) stays inside [0, extent). */
  lemma ScaleByDraw(draw: real, extent: real)
    requires InUnit(draw) && extent >= 0.0
    ensures 0.0 <= draw * extent <= extent
    ensures extent > 0.0 ==> draw * extent < extent
  {
    assert extent - draw * extent == (1.0 - draw) * extent;
  }

  /** A start coordinate: `Math.random() * extent`. */
  function StartCoord(draw: real, extent: real): (c: real)
    ensures InUnit(draw) && extent >= 0.0 ==> 0.0 <= c <= extent
    ensures InUnit(draw) && extent > 0.0 ==> c < extent
  {
    if InUnit(draw) && extent >= 0.0 then ScaleByDraw(draw, extent); draw * extent
    else draw * extent
  }

  /** A speed magnitude: `magnitude * (max - min) + min`. */
  function SpeedMagnitude(range: SpeedRange, magnitude: real): (m: real)
    ensures InUnit(magnitude) && range.min <= range.max ==> range.min <= m <= range.max
    ensures InUnit(magnitude) && range.min < range.max ==> m < range.max
  {
    var span := range.max - range.min;
    var scaled := magnitude * span;
    if InUnit(magnitude) && span >= 0.0 then
      ScaleByDraw(magnitude, span);
      assert 0.0 <= scaled <= span;
      assert span > 0.0 ==> scaled < span;
      scaled + range.min
    else
      scaled + range.min
  }

  /**
   * A signed speed: `(magnitude * (max - min) + min) * (sign < 0.5 ? -1 : 1)`,
   * where `magnitude` and `sign` are two draws.
   */
  function SignedSpeed(range: SpeedRange, magnitude: real, sign: real): (v: real)
    ensures InUnit(magnitude) && 0.0 <= range.min <= range.max ==> range.min <= Abs(v) <= range.max
    ensures InUnit(magnitude) && 0.0 <= range.min < range.max ==> Abs(v) < range.max
    ensures InUnit(magnitude) && 0.0 <= range.min <= range.max && sign < 0.5 ==> v <= 0.0
    ensures InUnit(magnitude) && 0.0 <= range.min <= range.max && sign >= 0.5 ==> v >= 0.0
  {
    SpeedMagnitude(range, magnitude) * (if sign < 0.5 then -1.0 else 1.0)
  }

  /** A start facing angle in degrees: `Math.random() * 360`. */
  function StartAngle(draw: real): (a: real)
    ensures InUnit(draw) ==> 0.0 <= a < 360.0
  {
    draw * 360.0
  }

  /** A per-circle rotation rate: `(Math.random() - 0.7) * 0.7`, biased towards negative. */
  function RotationRate(draw: real): (r: real)
    ensures InUnit(draw) ==> -0.49 <= r < 0.21
  {
    (draw - 0.7) * 0.7
  }

  /** A start position and launch velocity as a fresh seed must give them. */
  predicate Launched(x: real, y: real, vx: real, vy: real, rect: Rect, range: SpeedRange) {
    && (rect.width >= 0.0 ==> 0.0 <= x <= rect.width && (rect.width > 0.0 ==> x < rect.width))
    && (rect.height >= 0.0 ==> 0.0 <= y <= rect.height && (rect.height > 0.0 ==> y < rect.height))
    && (0.0 <= range.min <= range.max ==>
          range.min <= Abs(vx) <= range.max && range.min <= Abs(vy) <= range.max)
  }

  /** Radians to degrees: `angle * 180 / Math.PI`. */
  function Degrees(radians: real, trig: Trig): real {
    radians * 180.0 / trig.pi
  }

  /** Converting degrees to radians and back is exact over the reals. */
  lemma DegreesOfRadians(a: real, trig: Trig)
    ensures Degrees(a * trig.pi / 180.0, trig) == a
  {
    var pi: real := trig.pi;
    assert a * pi / 180.0 * 180.0 == a * pi;
    assert a * pi / pi == a;
  }

  /**
   * The content-rotation rule of the newer version, in degrees: an expanded
   * circle reads upright, an unpaused one is counter-rotated against its
   * orbit angle, and a paused one keeps whatever rotation it had.
   */
  function ContentRotation(expanded: bool, paused: bool, degrees: real, previous: real): (r: real)
    ensures expanded ==> r == 0.0
    ensures !expanded && !paused ==> r == 180.0 - degrees
    ensures !expanded && paused ==> r == previous
  {
    if expanded then 0.0
    else if !paused then -degrees + 180.0
    else previous
  }

  /** The fixed centre of the orbit. */
  const CenterX: real := 200.0
  const CenterY: real := 200.0

  /** The angle between neighbours on an orbit of n circles: 2π/n. */
  function AngleStep(trig: Trig, n: nat): (s: real)
    requires n > 0
    ensures s > 0.0
    ensures s * (n as real) == 2.0 * trig.pi
  {
    2.0 * trig.pi / (n as real)
  }

  /**
   * The orbit angle of every circle: circle i sits at i·(2π/n) plus the
   * global phase.
   */
  function OrbitAngles(trig: Trig, n: nat, phase: real): (r: seq<real>)
    ensures |r| == n
    ensures n > 0 ==> r[0] == phase
    ensures forall i :: 0 <= i < n - 1 ==> r[i + 1] - r[i] == AngleStep(trig, n)
    ensures n > 0 ==> r[n - 1] + AngleStep(trig, n) == phase + 2.0 * trig.pi
  {
    if n == 0 then []
    else
      var step := AngleStep(trig, n);
      var r := seq(n, i requires 0 <= i < n => Multiple(step, i) + phase);
      assert forall i :: 0 <= i < n ==> r[i] == Multiple(step, i) + phase;
      MultipleIsProduct(step, n);
      r
  }

  /** Circle i's orbit angle is the source's `angleStep * i + parentAngle`. */
  lemma OrbitAngleIsProduct(trig: Trig, n: nat, phase: real)
    ensures forall i :: 0 <= i < n ==> OrbitAngles(trig, n, phase)[i] == AngleStep(trig, n) * (i as real) + phase
  {
    if n > 0 {
      var step := AngleStep(trig, n);
      var r := OrbitAngles(trig, n, phase);
      forall i | 0 <= i < n
        ensures r[i] == step * (i as real) + phase
      {
        assert r[i] == Multiple(step, i) + phase;
        MultipleIsProduct(step, i);
      }
    }
  }

  /** `step * k`, built up one step at a time. */
  function Multiple(step: real, k: nat): real {
    if k == 0 then 0.0 else Multiple(step, k - 1) + step
  }

  /** Adding the step k times is multiplying by k. */
  lemma {:induction false} MultipleIsProduct(step: real, k: nat)
    ensures Multiple(step, k) == step * (k as real)
  {
    if k > 0 {
      MultipleIsProduct(step, k - 1);
      assert step * (k as real) == step * ((k - 1) as real) + step;
    }
  }

  /** Where circle at orbit angle `a` is headed. */
  function OrbitX(trig: Trig, radius: real, a: real): real {
    CenterX + radius * trig.cos(a)
  }

  function OrbitY(trig: Trig, radius: real, a: real): real {
    CenterY + radius * trig.sin(a)
  }

}

=== FILE: plugin.dfy ===
/**
 * The newer widget as a whole (src/js/circle-plugin.js): construction, the
 * frame-rate-capped animation loop, `addBook`, `setMode`, and every event
 * the page can deliver, as one state machine.
 */
module Plugin {

  import opened Wrappers
  import opened Host
  import opened Config
  import opened Books
  import opened Items
  import opened Motion
  import opened PluginState
  import opened PluginLayout
  import opened PluginControl

  /** The shortest gap between two frames the cap lets through, in milliseconds. */
  function FrameInterval(w: Widget): real {
    1000.0 / w.maxFps
  }

  /**
   * The frame-rate cap skips a call at `t`. With either time undefined the
   * difference is NaN, the comparison is false, and the call goes ahead.
   */
  predicate Throttled(w: Widget, t: Option<real>) {
    t.Some? && w.lastFrameTime.Some? && t.value - w.lastFrameTime.value < FrameInterval(w)
  }

  /**
   * `animate(t)`: unless the cap skips it, record the frame time, advance the
   * orbit by `speed` in circular mode when not paused, and lay out.
   */
  function Animate(w: Widget, trig: Trig, t: Option<real>, host: Host): (r: Widget)
    requires Aligned(w.particles, |w.circles|)
    ensures Throttled(w, t) ==> r == w
    ensures !Throttled(w, t) ==> r.lastFrameTime == t
    ensures r.parentAngle != w.parentAngle <==> !Throttled(w, t) && w.config.mode == CircularMode && !w.paused
    ensures r.parentAngle == w.parentAngle || r.parentAngle == w.parentAngle + w.config.speed
    ensures r.config == w.config && r.maxFps == w.maxFps && r.paused == w.paused && r.timers == w.timers
    ensures SameItems(r.circles, w.circles) && |r.particles| == |w.particles| && Aligned(r.particles, |r.circles|)
    ensures !Throttled(w, t) && w.config.mode == CircularMode ==>
              forall i :: 0 <= i < |w.circles| ==>
                r.circles[i] == Place(w.circles[i], OrbitAngles(trig, |w.circles|, r.parentAngle)[i], w.paused, w.config.radius, trig, host.offset(i))
    ensures !Throttled(w, t) && w.config.mode != CircularMode ==>
              forall i :: 0 <= i < |w.particles| ==> r.particles[i] == StepParticle(w.particles[i], w.paused, host.rect)
    ensures !Throttled(w, t) && w.config.mode != CircularMode ==>
              forall i :: 0 <= i < |w.particles| ==> r.circles[i] == ShowParticle(w.circles[i], r.particles[i], w.paused, trig)
    ensures w.config.mode == CircularMode ==> r.particles == w.particles
    ensures w.config.mode != CircularMode ==> forall i :: |w.particles| <= i < |w.circles| ==> r.circles[i] == w.circles[i]
    ensures Valid(w) ==> Valid(r)
  {
    if Throttled(w, t) then w
    else
      var phase := if w.config.mode == CircularMode && !w.paused then w.parentAngle + w.config.speed else w.parentAngle;
      var r := Layout(w.(lastFrameTime := t, parentAngle := phase), trig, host);
      SameItemsExpanded(r.circles, w.circles);
      r
  }

  /**
   * While paused, a frame leaves the orbit phase and every record's position
   * and velocity alone, yet the random-mode facing angles keep turning.
   */
  lemma PausedFrameFreezesMotion(w: Widget, trig: Trig, t: Option<real>, host: Host)
    requires Aligned(w.particles, |w.circles|) && w.paused
    ensures var r := Animate(w, trig, t, host);
            && r.parentAngle == w.parentAngle
            && |r.particles| == |w.particles|
            && (forall i :: 0 <= i < |w.particles| ==>
                  r.particles[i].x == w.particles[i].x && r.particles[i].y == w.particles[i].y
                  && r.particles[i].vx == w.particles[i].vx && r.particles[i].vy == w.particles[i].vy)
            && (!Throttled(w, t) && w.config.mode != CircularMode ==>
                  forall i :: 0 <= i < |w.particles| ==>
                    r.particles[i].angle == w.particles[i].angle + w.particles[i].rotationRate)
  {
    var r := Animate(w, trig, t, host);
    if !Throttled(w, t) && w.config.mode == CircularMode {
      assert r.particles == Layout(w.(lastFrameTime := t), trig, host).particles;
    }
  }

  /** The records a layout starts from: fresh ones, one per circle, in random mode; the old ones otherwise. */
  function Reseed(s: Widget, host: Host): Widget
    requires Aligned(s.particles, |s.circles|)
  {
    if s.config.mode == RandomMode then InitRandomData(s, host) else s
  }

  /**
   * The part of `Valid` a re-seed and a layout cannot repair: every timer
   * names an existing circle, and a paused widget has an expanded circle.
   */
  predicate Steady(w: Widget) {
    TimersOk(w.timers, |w.circles|) && (w.paused ==> SomeExpanded(w.circles))
  }

  /**
   * The tail `addBook` and `setMode` share: re-seed in random mode, then
   * lay out once. Every circle ends up where the layout puts it, measured
   * from the circles as they were before the re-seed.
   */
  function Settle(s: Widget, trig: Trig, host: Host): (r: Widget)
    requires Aligned(s.particles, |s.circles|)
    ensures r == s.(circles := r.circles, particles := r.particles)
    ensures SameItems(r.circles, s.circles) && Aligned(r.particles, |r.circles|)
    ensures s.config.mode == RandomMode ==> |r.particles| == |r.circles|
    ensures s.config.mode == RandomMode ==> forall i :: 0 <= i < |r.particles| ==>
              r.particles[i] == StepParticle(SeedParticle(i, host.rect, s.config.randomSpeedRange, host.draws(i)), s.paused, host.rect)
    ensures s.config.mode != RandomMode ==> |r.particles| == |s.particles|
    ensures s.config.mode != RandomMode && s.config.mode != CircularMode ==>
              forall i :: 0 <= i < |s.particles| ==> r.particles[i] == StepParticle(s.particles[i], s.paused, host.rect)
    ensures s.config.mode == CircularMode ==> r.particles == s.particles
    ensures s.config.mode == CircularMode ==> forall i :: 0 <= i < |s.circles| ==>
              r.circles[i] == Place(s.circles[i], OrbitAngles(trig, |s.circles|, s.parentAngle)[i], s.paused, s.config.radius, trig, host.offset(i))
    ensures s.config.mode != CircularMode ==> forall i :: 0 <= i < |r.particles| ==>
              r.circles[i] == ShowParticle(s.circles[i], r.particles[i], s.paused, trig)
    ensures s.config.mode != CircularMode ==> forall i :: |r.particles| <= i < |r.circles| ==> r.circles[i] == s.circles[i]
    ensures Steady(s) ==> Valid(r)
  {
    var seeded := Reseed(s, host);
    var r := Layout(seeded, trig, host);
    SameItemsExpanded(r.circles, s.circles);
    if s.config.mode == RandomMode then
      ShowIgnoresPosition(seeded.circles, s.circles, r.circles, r.particles, s.paused, trig);
      r
    else
      r
  }

  /** `addBookCircle` before its layout: append a collapsed circle and, in random mode, re-seed. */
  function Grow(w: Widget, book: Book, host: Host): (g: Widget)
    requires Aligned(w.particles, |w.circles|)
    ensures g == w.(circles := g.circles, particles := g.particles)
    ensures |g.circles| == |w.circles| + 1 && Extends(g.circles, w.circles)
    ensures g.circles[|w.circles|].book == book && !g.circles[|w.circles|].expanded
    ensures Aligned(g.particles, |g.circles|)
    ensures w.config.mode == RandomMode ==> |g.particles| == |g.circles|
    ensures w.config.mode == RandomMode ==> forall i :: 0 <= i < |g.particles| ==>
              g.particles[i] == SeedParticle(i, host.rect, w.config.randomSpeedRange, host.draws(i))
    ensures w.config.mode != RandomMode ==> g.particles == w.particles
  {
    Reseed(w.(circles := w.circles + [NewCircle(book)]), host)
  }

  /**
   * `addBook`: append a collapsed circle, then re-seed and lay out once
   * (`Grow` followed by `Layout`).
   */
  function AddBook(w: Widget, trig: Trig, book: Book, host: Host): (r: Widget)
    requires Aligned(w.particles, |w.circles|)
    ensures |r.circles| == |w.circles| + 1 && Extends(r.circles, w.circles)
    ensures r.circles[|w.circles|].book == book && !r.circles[|w.circles|].expanded
    ensures r.config == w.config && r.maxFps == w.maxFps && r.paused == w.paused && r.timers == w.timers
    ensures r.parentAngle == w.parentAngle && r.lastFrameTime == w.lastFrameTime
    ensures Aligned(r.particles, |r.circles|)
    ensures w.config.mode == RandomMode ==> |r.particles| == |r.circles|
    ensures w.config.mode == RandomMode ==> forall i :: 0 <= i < |r.particles| ==>
              r.particles[i] == StepParticle(SeedParticle(i, host.rect, w.config.randomSpeedRange, host.draws(i)), w.paused, host.rect)
    ensures w.config.mode != RandomMode ==> |r.particles| == |w.particles|
    ensures w.config.mode == CircularMode ==> r.particles == w.particles
    ensures w.config.mode != RandomMode && w.config.mode != CircularMode ==>
              forall i :: 0 <= i < |w.particles| ==> r.particles[i] == StepParticle(w.particles[i], w.paused, host.rect)
    ensures w.config.mode == CircularMode ==> forall i :: 0 <= i < |r.circles| ==>
              r.circles[i] == Place((w.circles + [NewCircle(book)])[i], OrbitAngles(trig, |w.circles| + 1, w.parentAngle)[i],
                                    w.paused, w.config.radius, trig, host.offset(i))
    ensures w.config.mode != CircularMode ==> forall i :: 0 <= i < |r.particles| ==>
              r.circles[i] == ShowParticle((w.circles + [NewCircle(book)])[i], r.particles[i], w.paused, trig)
    ensures w.config.mode != CircularMode ==> forall i :: |r.particles| <= i < |r.circles| ==>
              r.circles[i] == (w.circles + [NewCircle(book)])[i]
    ensures Valid(w) ==> Valid(r)
  {
    var grown := w.(circles := w.circles + [NewCircle(book)]);
    AppendKeepsSteady(w, book);
    Settle(grown, trig, host)
  }

  /** Appending a collapsed circle leaves the timers and the pause flag accounted for. */
  lemma AppendKeepsSteady(w: Widget, book: Book)
    ensures Valid(w) ==> Steady(w.(circles := w.circles + [NewCircle(book)]))
  {
    ExtendsExpanded(w.circles + [NewCircle(book)], w.circles);
  }

  /**
   * `setMode(mode)`: switch mode, re-seed every record when entering
   * "random", and lay out once.
   */
  function SetMode(w: Widget, trig: Trig, mode: string, host: Host): (r: Widget)
    requires Aligned(w.particles, |w.circles|)
    ensures r.config == w.config.(mode := mode)
    ensures SameItems(r.circles, w.circles)
    ensures r.maxFps == w.maxFps && r.paused == w.paused && r.timers == w.timers
    ensures r.parentAngle == w.parentAngle && r.lastFrameTime == w.lastFrameTime
    ensures Aligned(r.particles, |r.circles|)
    ensures mode == RandomMode ==> |r.particles| == |r.circles|
    ensures mode == RandomMode ==> forall i :: 0 <= i < |r.particles| ==>
              r.particles[i] == StepParticle(SeedParticle(i, host.rect, w.config.randomSpeedRange, host.draws(i)), w.paused, host.rect)
    ensures mode == CircularMode ==> r.particles == w.particles
    ensures mode != RandomMode ==> |r.particles| == |w.particles|
    ensures mode != RandomMode && mode != CircularMode ==>
              forall i :: 0 <= i < |w.particles| ==> r.particles[i] == StepParticle(w.particles[i], w.paused, host.rect)
    ensures mode == CircularMode ==> forall i :: 0 <= i < |r.circles| ==>
              r.circles[i] == Place(w.circles[i], OrbitAngles(trig, |w.circles|, w.parentAngle)[i], w.paused, w.config.radius, trig, host.offset(i))
    ensures mode != CircularMode ==> forall i :: 0 <= i < |r.particles| ==>
              r.circles[i] == ShowParticle(w.circles[i], r.particles[i], w.paused, trig)
    ensures mode != CircularMode ==> forall i :: |r.particles| <= i < |r.circles| ==> r.circles[i] == w.circles[i]
    ensures Valid(w) ==> Valid(r)
  {
    Settle(w.(config := w.config.(mode := mode)), trig, host)
  }

  /** The widget as the constructor leaves it before `init`. */
  function Empty(o: Options): (w: Widget)
    ensures Valid(w)
  {
    Widget(Defaults(o), MaxFps(o), [], [], 0.0, false, Some(0.0), [])
  }

  /** `init`'s loop: `addBookCircle` for each book in order, book k reading `hosts[k]`. */
  function AddBooks(w: Widget, trig: Trig, books: seq<Book>, hosts: seq<Host>): (r: Widget)
    requires Aligned(w.particles, |w.circles|) && |hosts| == |books|
    ensures |r.circles| == |w.circles| + |books| && Extends(r.circles, w.circles)
    ensures r.config == w.config && r.maxFps == w.maxFps && r.paused == w.paused && r.timers == w.timers
    ensures r.parentAngle == w.parentAngle && r.lastFrameTime == w.lastFrameTime
    ensures Aligned(r.particles, |r.circles|)
    ensures Valid(w) ==> Valid(r)
    decreases |books|
  {
    if books == [] then w
    else
      var next := AddBook(w, trig, books[0], hosts[0]);
      var r := AddBooks(next, trig, books[1..], hosts[1..]);
      ExtendsTransitive(r.circles, next.circles, w.circles);
      r
  }

  /** The circles `init` appends hold the initial books, in order, collapsed. */
  lemma {:induction false} AddBooksAppends(w: Widget, trig: Trig, books: seq<Book>, hosts: seq<Host>)
    requires Aligned(w.particles, |w.circles|) && |hosts| == |books|
    ensures Appended(AddBooks(w, trig, books, hosts).circles, |w.circles|, books)
    decreases |books|
  {
    if books != [] {
      var next := AddBook(w, trig, books[0], hosts[0]);
      var r := AddBooks(next, trig, books[1..], hosts[1..]);
      assert AddBooks(w, trig, books, hosts) == r;
      AddBooksAppends(next, trig, books[1..], hosts[1..]);
      assert r.circles[|w.circles|].book == next.circles[|w.circles|].book;
      assert r.circles[|w.circles|].expanded == next.circles[|w.circles|].expanded;
      AppendedCons(r.circles, |w.circles|, books);
    }
  }

  /**
   * The constructor: resolve the options, add the initial books, then call
   * `animate()` once without a timestamp, which is never skipped and leaves
   * `lastFrameTime` undefined.
   */
  function Create(o: Options, trig: Trig, books: seq<Book>, hosts: seq<Host>): (r: Widget)
    requires |hosts| == |books| + 1
    ensures Valid(r)
    ensures |r.circles| == |books|
    ensures forall k :: 0 <= k < |books| ==> r.circles[k].book == books[k] && !r.circles[k].expanded
    ensures r.config == Defaults(o) && r.maxFps == MaxFps(o)
    ensures !r.paused && r.timers == [] && r.lastFrameTime == None
    ensures r.parentAngle == if Defaults(o).mode == CircularMode then Defaults(o).speed as real else 0.0
  {
    var built := AddBooks(Empty(o), trig, books, hosts[..|books|]);
    AddBooksAppends(Empty(o), trig, books, hosts[..|books|]);
    var r := Animate(built, trig, None, hosts[|books|]);
    forall k | 0 <= k < |books|
      ensures r.circles[k].book == books[k] && !r.circles[k].expanded
    {
      assert built.circles[0 + k].book == books[k] && !built.circles[0 + k].expanded;
    }
    r
  }

  /** Everything that can happen to a widget, one event at a time. */
  datatype Event =
    | CircleClicked(i: nat)
    | CircleDoubleClicked(i: nat)
    | OutsideClicked(modalOpen: bool)
    | TimerFired
    | FrameRequested(time: real, host: Host)
    | BookAdded(book: Book, host: Host)
    | ModeChanged(mode: string, host: Host)

  /** A frame the cap lets through. */
  predicate AcceptedFrame(w: Widget, e: Event) {
    e.FrameRequested? && !Throttled(w, Some(e.time))
  }

  /** One event. Clicks always name an existing circle; others are ignored. */
  function Step(w: Widget, trig: Trig, e: Event): (r: Fired)
    requires Valid(w)
    ensures Valid(r.widget)
    ensures r.widget.maxFps == w.maxFps
    ensures AcceptedFrame(w, e) ==> r.widget.lastFrameTime == Some(e.time)
    ensures !AcceptedFrame(w, e) ==> r.widget.lastFrameTime == w.lastFrameTime
    ensures r.signal.Some? ==> e.TimerFired? && r.signal.value.fileName != "" && r.signal.value.fileName == r.signal.value.book.fileName
  {
    match e
    case CircleClicked(i) => Fired(if i < |w.circles| then Click(w, i) else w, None)
    case CircleDoubleClicked(i) => Fired(if i < |w.circles| then DoubleClick(w, i) else w, None)
    case OutsideClicked(modalOpen) => Fired(ClickOutside(w, modalOpen), None)
    case TimerFired => FireTimer(w)
    case FrameRequested(t, host) => Fired(Animate(w, trig, Some(t), host), None)
    case BookAdded(book, host) => Fired(AddBook(w, trig, book, host), None)
    case ModeChanged(mode, host) => Fired(SetMode(w, trig, mode, host), None)
  }

  /** The outcome of a run: the final widget, the events dispatched and the accepted frame times. */
  datatype Trace = Trace(widget: Widget, signals: seq<Signal>, frames: seq<real>)

  /**
   * A sequence of events. Whatever they are and however they interleave,
   * the invariant holds throughout, every open request names its own book's
   * file, and the frames the cap lets through follow the last frame before
   * the run at least 1000/maxFps milliseconds apart.
   */
  function Run(w: Widget, trig: Trig, es: seq<Event>): (r: Trace)
    requires Valid(w)
    ensures Valid(r.widget) && r.widget.maxFps == w.maxFps
    ensures forall s :: s in r.signals ==> s.fileName != "" && s.fileName == s.book.fileName
    ensures FramesFollow(w.lastFrameTime, r, FrameInterval(w))
    decreases |es|
  {
    if es == [] then Trace(w, [], [])
    else
      var s := Step(w, trig, es[0]);
      var rest := Run(s.widget, trig, es[1..]);
      StepSpaced(w, es[0], s, rest);
      Extend(w, es[0], s, rest)
  }

  /** The time of `e` when it is a frame the cap lets through, else nothing. */
  function FramesOf(w: Widget, e: Event): seq<real> {
    if AcceptedFrame(w, e) then [e.time] else []
  }

  /** Prefix the outcome of event `e` (with result `s`) to the rest of a run. */
  function Extend(w: Widget, e: Event, s: Fired, rest: Trace): Trace {
    Trace(rest.widget, (if s.signal.Some? then [s.signal.value] else []) + rest.signals, FramesOf(w, e) + rest.frames)
  }

  /** Consecutive times are at least `gap` apart. */
  predicate Spaced(frames: seq<real>, gap: real) {
    forall k :: 0 < k < |frames| ==> frames[k] - frames[k - 1] >= gap
  }

  /**
   * The accepted frames of a run are `gap` apart, the first one also from
   * the frame before the run (`last`), and the widget remembers the newest.
   */
  predicate FramesFollow(last: Option<real>, r: Trace, gap: real) {
    && Spaced(r.frames, gap)
    && (|r.frames| > 0 && last.Some? ==> r.frames[0] - last.value >= gap)
    && (|r.frames| > 0 ==> r.widget.lastFrameTime == Some(r.frames[|r.frames| - 1]))
    && (|r.frames| == 0 ==> r.widget.lastFrameTime == last)
  }

  /** One event in front of a run whose frames follow its start keeps them following. */
  lemma StepSpaced(w: Widget, e: Event, s: Fired, rest: Trace)
    requires s.widget.maxFps == w.maxFps
    requires AcceptedFrame(w, e) ==> s.widget.lastFrameTime == Some(e.time)
    requires !AcceptedFrame(w, e) ==> s.widget.lastFrameTime == w.lastFrameTime
    requires FramesFollow(s.widget.lastFrameTime, rest, FrameInterval(s.widget))
    ensures FramesFollow(w.lastFrameTime, Extend(w, e, s, rest), FrameInterval(w))
  {
    if AcceptedFrame(w, e) {
      assert !Throttled(w, Some(e.time));
      SpacedCons(e.time, rest.frames, FrameInterval(w));
    }
  }

  lemma SpacedCons(t: real, frames: seq<real>, gap: real)
    requires Spaced(frames, gap)
    requires |frames| > 0 ==> frames[0] - t >= gap
    ensures Spaced([t] + frames, gap)
  {
    var all := [t] + frames;
    forall k | 1 < k < |all|
      ensures all[k] - all[k - 1] >= gap
    {
      assert all[k] == frames[k - 1] && all[k - 1] == frames[k - 2];
    }
  }

  /**
   * At 30 frames per second, of three frames at t, t + 10 and t + 40 the
   * middle one is skipped.
   */
  lemma ThirtyFpsSkipsCloseFrame(w: Widget, trig: Trig, t: real, host: Host)
    requires Valid(w) && w.maxFps == 30.0
    requires w.lastFrameTime.None? || t - w.lastFrameTime.value >= 1000.0 / 30.0
    ensures Run(w, trig, [FrameRequested(t, host), FrameRequested(t + 10.0, host), FrameRequested(t + 40.0, host)]).frames
            == [t, t + 40.0]
  {
    var es := [FrameRequested(t, host), FrameRequested(t + 10.0, host), FrameRequested(t + 40.0, host)];
    var s1 := Step(w, trig, es[0]);
    var s2 := Step(s1.widget, trig, es[1]);
    var s3 := Step(s2.widget, trig, es[2]);
    assert AcceptedFrame(w, es[0]);
    assert !AcceptedFrame(s1.widget, es[1]);
    assert AcceptedFrame(s2.widget, es[2]);
    assert es[1..][1..] == [es[2]];
    assert es[1..][1..][1..] == [];
    var r3 := Run(s3.widget, trig, []);
    var r2 := Run(s2.widget, trig, [es[2]]);
    assert r2.frames == [t + 40.0] + r3.frames;
    var r1 := Run(s1.widget, trig, es[1..]);
    assert r1.frames == r2.frames;
    assert Run(w, trig, es).frames == [t] + r1.frames;
  }

}

=== FILE: plugin_control.dfy ===
/**
 * The interaction handlers of the newer widget: click, double-click and
 * outside click, and the 300 ms debounce timer that asks for a book to be
 * opened.
 */
module PluginControl {

  import opened Wrappers
  import opened Books
  import opened Items
  import opened PluginState

  /** The `book-open-requested` event, as the value a handler emits. */
  datatype Signal = OpenRequested(fileName: string, book: Book)

  /** A widget after a transition, with the event it dispatched, if any. */
  datatype Fired = Fired(widget: Widget, signal: Option<Signal>)

  /**
   * `clearTimeout`: drop circle i's pending timer; the others keep their
   * order (`CancelSplits`).
   */
  function Cancel(timers: seq<nat>, i: nat): (r: seq<nat>)
    ensures forall t :: t in r <==> t in timers && t != i
    ensures NoDup(timers) ==> NoDup(r)
    ensures |r| <= |timers|
    ensures i !in timers ==> r == timers
  {
    if timers == [] then []
    else
      var rest := Cancel(timers[1..], i);
      assert NoDup(timers) ==> timers[0] !in timers[1..];
      (if timers[0] == i then [] else [timers[0]]) + rest
  }

  /**
   * Cancelling works piece by piece: the timers set before and after any
   * point stay on their own side, so the queue's order survives.
   */
  lemma {:induction false} CancelSplits(a: seq<nat>, b: seq<nat>, i: nat)
    ensures Cancel(a + b, i) == Cancel(a, i) + Cancel(b, i)
    decreases |a|
  {
    if a != [] {
      assert (a + b)[1..] == a[1..] + b;
      CancelSplits(a[1..], b, i);
    } else {
      assert a + b == b;
    }
  }

  /** Cancelling a timer keeps the queue well formed. */
  lemma CancelKeepsTimersOk(timers: seq<nat>, i: nat, n: nat)
    ensures TimersOk(timers, n) ==> TimersOk(Cancel(timers, i), n)
  {
    if TimersOk(timers, n) {
      var r := Cancel(timers, i);
      forall k | 0 <= k < |r|
        ensures r[k] < n
      {
        assert r[k] in r;
        var j :| 0 <= j < |timers| && timers[j] == r[k];
      }
    }
  }

  /**
   * A click on circle i. Its pending timer is cancelled first. A collapsed
   * circle expands and pauses the widget; an expanded one stays expanded
   * and sets a fresh timer.
   */
  function Click(w: Widget, i: nat): (r: Widget)
    requires i < |w.circles|
    ensures r == w.(circles := r.circles, paused := r.paused, timers := r.timers)
    ensures r.circles == w.circles[i := w.circles[i].(expanded := true)]
    ensures !w.circles[i].expanded ==> r.paused && i !in r.timers
    ensures w.circles[i].expanded ==> r.paused == w.paused && |r.timers| > 0 && r.timers[|r.timers| - 1] == i
    ensures forall t :: t != i ==> (t in r.timers <==> t in w.timers)
    ensures r.timers == Cancel(w.timers, i) + (if w.circles[i].expanded then [i] else [])
    ensures Valid(w) ==> Valid(r)
  {
    var timers := Cancel(w.timers, i);
    CancelKeepsTimersOk(w.timers, i, |w.circles|);
    if w.circles[i].expanded then
      assert i !in timers;
      w.(timers := timers + [i])
    else
      var circles := w.circles[i := w.circles[i].(expanded := true)];
      assert circles[i].expanded;
      w.(circles := circles, paused := true, timers := timers)
  }

  /**
   * A double-click on circle i: cancel its timer, collapse it, and unpause
   * the widget whatever the other circles are doing.
   */
  function DoubleClick(w: Widget, i: nat): (r: Widget)
    requires i < |w.circles|
    ensures r == w.(circles := r.circles, paused := r.paused, timers := r.timers)
    ensures r.circles == w.circles[i := w.circles[i].(expanded := false)]
    ensures !r.paused && i !in r.timers
    ensures forall t :: t != i ==> (t in r.timers <==> t in w.timers)
    ensures r.timers == Cancel(w.timers, i)
    ensures Valid(w) ==> Valid(r)
  {
    CancelKeepsTimersOk(w.timers, i, |w.circles|);
    w.(circles := w.circles[i := w.circles[i].(expanded := false)],
       paused := false,
       timers := Cancel(w.timers, i))
  }

  /**
   * A click outside every circle. One document listener per circle exists;
   * unless the reader modal is open each collapses every circle and
   * unpauses. Pending timers are left alone.
   */
  function ClickOutside(w: Widget, modalOpen: bool): (r: Widget)
    ensures modalOpen || |w.circles| == 0 ==> r == w
    ensures !modalOpen && |w.circles| > 0 ==> !r.paused && !SomeExpanded(r.circles)
    ensures r == w.(circles := r.circles, paused := r.paused)
    ensures |r.circles| == |w.circles|
    ensures forall j :: 0 <= j < |w.circles| ==> r.circles[j] == w.circles[j].(expanded := r.circles[j].expanded)
    ensures Valid(w) ==> Valid(r)
  {
    if modalOpen || |w.circles| == 0 then w
    else
      w.(circles := seq(|w.circles|, j requires 0 <= j < |w.circles| => w.circles[j].(expanded := false)),
         paused := false)
  }

  /**
   * The oldest pending timer fires: it asks for its circle's book to be
   * opened when the book has a file name. It does not look at whether the
   * circle is still expanded.
   */
  function FireTimer(w: Widget): (r: Fired)
    requires forall k :: 0 <= k < |w.timers| ==> w.timers[k] < |w.circles|
    ensures w.timers == [] ==> r == Fired(w, None)
    ensures w.timers != [] ==> r.widget == w.(timers := w.timers[1..])
    ensures r.signal.Some? <==> w.timers != [] && w.circles[w.timers[0]].book.fileName != ""
    ensures r.signal.Some? ==> r.signal.value == OpenRequested(r.signal.value.book.fileName, w.circles[w.timers[0]].book)
    ensures Valid(w) ==> Valid(r.widget)
  {
    if w.timers == [] then Fired(w, None)
    else
      var book := w.circles[w.timers[0]].book;
      var rest := w.(timers := w.timers[1..]);
      assert forall k :: 0 <= k < |rest.timers| ==> rest.timers[k] == w.timers[k + 1];
      if book.fileName != "" then Fired(rest, Some(OpenRequested(book.fileName, book)))
      else Fired(rest, None)
  }

  /**
   * Tap to preview, tap again to open: the first click expands and pauses,
   * the second sets a timer, and when it fires the book is requested.
   */
  lemma TapTwiceOpens(w: Widget, i: nat)
    requires Valid(w) && i < |w.circles| && !w.circles[i].expanded && w.timers == []
    requires w.circles[i].book.fileName != ""
    ensures var first := Click(w, i);
            var fired := FireTimer(Click(first, i));
            && first.paused && first.circles[i].expanded
            && fired.widget.circles[i].expanded && fired.widget.paused
            && fired.signal == Some(OpenRequested(w.circles[i].book.fileName, w.circles[i].book))
  {
    var second := Click(Click(w, i), i);
    assert second.timers == [i];
  }

  /**
   * A timer outlives the dismissal of its circle: click an expanded circle,
   * click outside, and the timer still opens the book of a circle that is
   * no longer expanded.
   */
  lemma StaleTimerStillOpens(w: Widget, i: nat)
    requires Valid(w) && i < |w.circles| && w.circles[i].expanded && w.timers == []
    requires w.circles[i].book.fileName != ""
    ensures var fired := FireTimer(ClickOutside(Click(w, i), false));
            && !fired.widget.circles[i].expanded
            && fired.signal == Some(OpenRequested(w.circles[i].book.fileName, w.circles[i].book))
  {
    var clicked := Click(w, i);
    assert clicked.timers == [i];
  }

  /**
   * A double-click unpauses the widget even while another circle stays
   * expanded, so "paused exactly when some circle is expanded" fails here.
   */
  lemma DoubleClickIgnoresOthers(w: Widget, i: nat, j: nat)
    requires i < |w.circles| && j < |w.circles| && i != j && w.circles[j].expanded
    ensures var r := DoubleClick(w, i);
            !r.paused && SomeExpanded(r.circles)
  {
    assert DoubleClick(w, i).circles[j].expanded;
  }

}

=== FILE: plugin_layout.dfy ===
/**
 * The layout pass of the newer widget (`updatePositions`): the eased
 * circular orbit and the random walk with wall reflection.
 */
module PluginLayout {

  import opened Host
  import opened Config
  import opened Items
  import opened Motion
  import opened PluginState

  /**
   * One record's share of `updateRandomPosition`: unless paused, move and
   * bounce off the four walls; in every case advance the facing angle.
   */
  function StepParticle(p: Particle, paused: bool, rect: Rect): (r: Particle)
    ensures r.element == p.element && r.rotationRate == p.rotationRate
    ensures r.angle == p.angle + p.rotationRate
    ensures paused ==> r.x == p.x && r.y == p.y && r.vx == p.vx && r.vy == p.vy
    ensures Abs(r.vx) == Abs(p.vx) && Abs(r.vy) == Abs(p.vy)
    ensures !paused && rect.width >= 0.0 ==>
              0.0 <= r.x <= rect.width && r.x == Clamp(p.x + p.vx, 0.0, rect.width)
              && r.vx == (if Crossed(p.x + p.vx, rect.width) then -p.vx else p.vx)
    ensures !paused && rect.height >= 0.0 ==>
              0.0 <= r.y <= rect.height && r.y == Clamp(p.y + p.vy, 0.0, rect.height)
              && r.vy == (if Crossed(p.y + p.vy, rect.height) then -p.vy else p.vy)
  {
    var moved :=
      if paused then p
      else
        var ax := Bounce(Axis(p.x, p.vx), rect.width);
        var ay := Bounce(Axis(p.y, p.vy), rect.height);
        p.(x := ax.pos, vx := ax.vel, y := ay.pos, vy := ay.vel);
    moved.(angle := moved.angle + moved.rotationRate)
  }

  /**
   * What a record writes to its circle: the position, and the content
   * rotation for the facing angle, passed to `updateBookContent` in radians.
   */
  function ShowParticle(c: Circle, p: Particle, paused: bool, trig: Trig): (r: Circle)
    ensures r.book == c.book && r.expanded == c.expanded
    ensures r.left == p.x && r.top == p.y
    ensures c.expanded ==> r.rotation == 0.0
    ensures !c.expanded && !paused ==> r.rotation == 180.0 - p.angle
    ensures !c.expanded && paused ==> r.rotation == c.rotation
  {
    DegreesOfRadians(p.angle, trig);
    c.(left := p.x, top := p.y,
       rotation := ContentRotation(c.expanded, paused, Degrees(p.angle * trig.pi / 180.0, trig), c.rotation))
  }

  /** Showing a record overwrites the circle's position, so where it stood before does not matter. */
  lemma ShowIgnoresPosition(moved: seq<Circle>, base: seq<Circle>, shown: seq<Circle>, ps: seq<Particle>, paused: bool, trig: Trig)
    requires SameItems(moved, base) && |ps| <= |moved| <= |shown|
    requires forall i :: 0 <= i < |moved| ==> moved[i].rotation == base[i].rotation
    requires forall i :: 0 <= i < |ps| ==> shown[i] == ShowParticle(moved[i], ps[i], paused, trig)
    ensures forall i :: 0 <= i < |ps| ==> shown[i] == ShowParticle(base[i], ps[i], paused, trig)
  {
  }

  /** `updateRandomPosition`: step every record in order and show it on its circle. */
  function RandomPass(w: Widget, trig: Trig, rect: Rect): (r: Widget)
    requires Aligned(w.particles, |w.circles|)
    ensures r == w.(particles := r.particles, circles := r.circles)
    ensures |r.particles| == |w.particles| && Aligned(r.particles, |r.circles|)
    ensures forall i :: 0 <= i < |w.particles| ==> r.particles[i] == StepParticle(w.particles[i], w.paused, rect)
    ensures SameItems(r.circles, w.circles)
    ensures forall i :: 0 <= i < |w.particles| ==> r.circles[i] == ShowParticle(w.circles[i], r.particles[i], w.paused, trig)
    ensures forall i :: |w.particles| <= i < |w.circles| ==> r.circles[i] == w.circles[i]
  {
    var ps := seq(|w.particles|, i requires 0 <= i < |w.particles| => StepParticle(w.particles[i], w.paused, rect));
    var element := (p: Particle) => p.element;
    var show := (c: Circle, p: Particle) => ShowParticle(c, p, w.paused, trig);
    ApplyAligned(w.circles, ps, element, show);
    w.(particles := ps, circles := Apply(w.circles, ps, element, show))
  }

  /**
   * One circle's share of `updateCircularPosition`: ease 10% of the way from
   * its measured offset to its orbit point, and set its content rotation.
   */
  function Place(c: Circle, angle: real, paused: bool, radius: real, trig: Trig, measured: Point): (r: Circle)
    ensures r.book == c.book && r.expanded == c.expanded
    ensures OrbitX(trig, radius, angle) - r.left == 0.9 * (OrbitX(trig, radius, angle) - measured.left)
    ensures OrbitY(trig, radius, angle) - r.top == 0.9 * (OrbitY(trig, radius, angle) - measured.top)
    ensures c.expanded ==> r.rotation == 0.0
    ensures !c.expanded && !paused ==> r.rotation == 180.0 - Degrees(angle, trig)
    ensures !c.expanded && paused ==> r.rotation == c.rotation
  {
    c.(left := Ease(measured.left, OrbitX(trig, radius, angle)),
       top := Ease(measured.top, OrbitY(trig, radius, angle)),
       rotation := ContentRotation(c.expanded, paused, Degrees(angle, trig), c.rotation))
  }

  /**
   * `updateCircularPosition`: circle i of n heads for orbit angle
   * i·(2π/n) + phase. With no circles there is nothing to place.
   */
  function CircularPass(cs: seq<Circle>, paused: bool, radius: real, phase: real, trig: Trig, offset: nat -> Point): (r: seq<Circle>)
    ensures SameItems(r, cs)
    ensures forall i :: 0 <= i < |r| ==> r[i] == Place(cs[i], OrbitAngles(trig, |cs|, phase)[i], paused, radius, trig, offset(i))
  {
    var angles := OrbitAngles(trig, |cs|, phase);
    var r := seq(|cs|, i requires 0 <= i < |cs| => Place(cs[i], angles[i], paused, radius, trig, offset(i)));
    assert forall i :: 0 <= i < |cs| ==> r[i] == Place(cs[i], angles[i], paused, radius, trig, offset(i));
    assert forall i :: 0 <= i < |cs| ==> r[i].book == cs[i].book && r[i].expanded == cs[i].expanded;
    r
  }

  /** `updatePositions`: the circular pass in "circular" mode, the random pass in any other. */
  function Layout(w: Widget, trig: Trig, host: Host): (r: Widget)
    requires Aligned(w.particles, |w.circles|)
    ensures r == w.(particles := r.particles, circles := r.circles)
    ensures |r.particles| == |w.particles| && Aligned(r.particles, |r.circles|)
    ensures SameItems(r.circles, w.circles)
    ensures w.config.mode == CircularMode ==> r.particles == w.particles
    ensures w.config.mode == CircularMode ==>
              forall i :: 0 <= i < |w.circles| ==>
                r.circles[i] == Place(w.circles[i], OrbitAngles(trig, |w.circles|, w.parentAngle)[i], w.paused, w.config.radius, trig, host.offset(i))
    ensures w.config.mode != CircularMode ==>
              forall i :: 0 <= i < |w.particles| ==> r.particles[i] == StepParticle(w.particles[i], w.paused, host.rect)
    ensures w.config.mode != CircularMode ==>
              forall i :: 0 <= i < |w.particles| ==> r.circles[i] == ShowParticle(w.circles[i], r.particles[i], w.paused, trig)
    ensures w.config.mode != CircularMode ==> forall i :: |w.particles| <= i < |w.circles| ==> r.circles[i] == w.circles[i]
  {
    if w.config.mode == CircularMode then
      w.(circles := CircularPass(w.circles, w.paused, w.config.radius, w.parentAngle, trig, host.offset))
    else
      RandomPass(w, trig, host.rect)
  }

  /**
   * The eased circular layout converges: while the orbit point of a circle
   * stays put and its offset reads back the position last written, k passes
   * leave 0.9^k of the first gap.
   */
  lemma {:induction false} PlaceConverges(c: Circle, angle: real, paused: bool, radius: real, trig: Trig, k: nat)
    ensures var tx := OrbitX(trig, radius, angle);
            tx - PlaceTimes(c, angle, paused, radius, trig, k).left == Pow(0.9, k) * (tx - c.left)
    ensures var ty := OrbitY(trig, radius, angle);
            ty - PlaceTimes(c, angle, paused, radius, trig, k).top == Pow(0.9, k) * (ty - c.top)
  {
    LeftConverges(c, angle, paused, radius, trig, k);
    TopConverges(c, angle, paused, radius, trig, k);
  }

  /** The horizontal half of `PlaceConverges`. */
  lemma {:induction false} LeftConverges(c: Circle, angle: real, paused: bool, radius: real, trig: Trig, k: nat)
    ensures var tx := OrbitX(trig, radius, angle);
            tx - PlaceTimes(c, angle, paused, radius, trig, k).left == Pow(0.9, k) * (tx - c.left)
  {
    var tx := OrbitX(trig, radius, angle);
    if k > 0 {
      LeftConverges(c, angle, paused, radius, trig, k - 1);
      var prev := PlaceTimes(c, angle, paused, radius, trig, k - 1);
      var gap := tx - prev.left;
      assert tx - PlaceTimes(c, angle, paused, radius, trig, k).left == 0.9 * gap;
      assert 0.9 * (Pow(0.9, k - 1) * (tx - c.left)) == (0.9 * Pow(0.9, k - 1)) * (tx - c.left);
    }
  }

  /** The vertical half of `PlaceConverges`. */
  lemma {:induction false} TopConverges(c: Circle, angle: real, paused: bool, radius: real, trig: Trig, k: nat)
    ensures var ty := OrbitY(trig, radius, angle);
            ty - PlaceTimes(c, angle, paused, radius, trig, k).top == Pow(0.9, k) * (ty - c.top)
  {
    var ty := OrbitY(trig, radius, angle);
    if k > 0 {
      TopConverges(c, angle, paused, radius, trig, k - 1);
      var prev := PlaceTimes(c, angle, paused, radius, trig, k - 1);
      var gap := ty - prev.top;
      assert ty - PlaceTimes(c, angle, paused, radius, trig, k).top == 0.9 * gap;
      assert 0.9 * (Pow(0.9, k - 1) * (ty - c.top)) == (0.9 * Pow(0.9, k - 1)) * (ty - c.top);
    }
  }

  /** k circular passes over one circle whose offset reads back its last position. */
  function PlaceTimes(c: Circle, angle: real, paused: bool, radius: real, trig: Trig, k: nat): Circle {
    if k == 0 then c
    else
      var prev := PlaceTimes(c, angle, paused, radius, trig, k - 1);
      Place(prev, angle, paused, radius, trig, Point(prev.left, prev.top))
  }

}

=== FILE: plugin_state.dfy ===
/**
 * State of the newer widget (src/js/circle-plugin.js): the circles, the
 * random-mode records, the shared animation state and the pending
 * debounce timers, together with the invariant every reachable state keeps.
 */
module PluginState {

  import opened Wrappers
  import opened Host
  import opened Config
  import opened Items
  import opened Motion

  /**
   * One random-mode record (an entry of `circlesData`): the circle it moves,
   * its position and velocity in pixels per tick, and its facing angle and
   * rotation rate in degrees.
   */
  datatype Particle = Particle(element: nat, x: real, y: real, vx: real, vy: real, angle: real, rotationRate: real)

  /**
   * The widget. `lastFrameTime` is `None` while it holds JavaScript's
   * `undefined`. `timers` is the host's queue of pending 300 ms debounce
   * timers, each naming the circle that set it; they share one delay, so
   * they fire in the order they were set.
   */
  datatype Widget = Widget(
    config: Config,
    maxFps: NonZero,
    circles: seq<Circle>,
    particles: seq<Particle>,
    parentAngle: real,
    paused: bool,
    lastFrameTime: Option<real>,
    timers: seq<nat>)

  /** Record i moves circle i, and no record lacks a circle. */
  predicate Aligned(ps: seq<Particle>, n: nat) {
    |ps| <= n && forall i :: 0 <= i < |ps| ==> ps[i].element == i
  }

  predicate NoDup(s: seq<nat>) {
    forall a, b :: 0 <= a < b < |s| ==> s[a] != s[b]
  }

  /** Every pending timer belongs to an existing circle, and no circle has two. */
  predicate TimersOk(timers: seq<nat>, n: nat) {
    NoDup(timers) && forall k :: 0 <= k < |timers| ==> timers[k] < n
  }

  /**
   * The invariant of every reachable state. In random mode every circle has
   * its record; at most one timer is pending per circle; and the widget is
   * paused only while some circle is expanded (the converse does not hold
   * in this version).
   */
  predicate Valid(w: Widget) {
    && Aligned(w.particles, |w.circles|)
    && (w.config.mode == RandomMode ==> |w.particles| == |w.circles|)
    && TimersOk(w.timers, |w.circles|)
    && (w.paused ==> SomeExpanded(w.circles))
  }

  /** What a freshly seeded record satisfies when its draws lie in [0, 1). */
  predicate Seeded(p: Particle, rect: Rect, range: SpeedRange) {
    && Launched(p.x, p.y, p.vx, p.vy, rect, range)
    && 0.0 <= p.angle < 360.0
    && -0.49 <= p.rotationRate < 0.21
  }

  /** The record `initRandomData` builds for circle i from its draws. */
  function SeedParticle(i: nat, rect: Rect, range: SpeedRange, d: SeedDraw): (p: Particle)
    ensures p.element == i
    ensures ValidDraw(d) ==> Seeded(p, rect, range)
    ensures ValidDraw(d) && 0.0 <= range.min <= range.max ==> (p.vx < 0.0 ==> d.signX < 0.5) && (p.vy < 0.0 ==> d.signY < 0.5)
  {
    Particle(i,
      StartCoord(d.x, rect.width),
      StartCoord(d.y, rect.height),
      SignedSpeed(range, d.speedX, d.signX),
      SignedSpeed(range, d.speedY, d.signY),
      StartAngle(d.angle),
      RotationRate(d.rate))
  }

  /**
   * `initRandomData`: replace the records with one fresh record per circle
   * and place every circle at its record's start.
   */
  function InitRandomData(w: Widget, host: Host): (r: Widget)
    ensures r == w.(particles := r.particles, circles := r.circles)
    ensures |r.particles| == |w.circles| && Aligned(r.particles, |r.circles|)
    ensures forall i :: 0 <= i < |r.particles| ==>
              r.particles[i] == SeedParticle(i, host.rect, w.config.randomSpeedRange, host.draws(i))
    ensures SameItems(r.circles, w.circles)
    ensures forall i :: 0 <= i < |r.particles| ==>
              r.circles[i].left == r.particles[i].x && r.circles[i].top == r.particles[i].y
              && r.circles[i].rotation == w.circles[i].rotation
    ensures forall i :: 0 <= i < |r.particles| && ValidDraw(host.draws(i)) ==>
              Seeded(r.particles[i], host.rect, w.config.randomSpeedRange)
  {
    var ps := seq(|w.circles|, i requires 0 <= i < |w.circles| =>
                SeedParticle(i, host.rect, w.config.randomSpeedRange, host.draws(i)));
    var cs := seq(|w.circles|, i requires 0 <= i < |w.circles| =>
                w.circles[i].(left := ps[i].x, top := ps[i].y));
    assert forall i :: 0 <= i < |ps| ==> ps[i] == SeedParticle(i, host.rect, w.config.randomSpeedRange, host.draws(i));
    assert forall i :: 0 <= i < |ps| ==> ps[i].element == i;
    w.(particles := ps, circles := cs)
  }

}

=== FILE: wrappers.dfy ===
/** Optional values: `None` stands for JavaScript's `undefined`. */
module Wrappers {

  datatype Option<+T> = None | Some(value: T)

}
